=== FILE: README.md ===
# Beaglebone orthosis controller — a Dafny model

This project models the sequential logic of the Beaglebone program that drives
a two-legged knee orthosis. Two orientation sensors (AHRS) stream fixed-size
frames over serial lines. Two motors follow position-velocity-time (PVT)
trajectories. A UDP client switches the system on and off, starts and stops
the control loop, and tunes ten knobs per leg. The model covers five pieces:

- **Ahrs** (`ahrs.dfy`): the 42-byte frame layout; the resynchronising frame
  search with its incrementally updated running checksum; logging of each
  accepted sample; and the log dump.
- **Pvt** (`pvt.dfy`): the trajectory record and its parameters; the shape of
  the generated arrays; and the feasibility check over exact reals. The check
  covers the duration gate, the cubic fitted to every interval, the running
  velocity and acceleration maxima, and the final comparison in motor units.
- **Control** (`control.dfy`): the per-leg STANCE/SWING state machine. Emitted
  signals become an event list, and the clock becomes an input in ms. It also
  covers `reset`, the parameter slots of `paramGet` and the whole-array
  replacement of `PVTGet`.
- **Param** (`param.dfy`): the two-channel knob store. `set` stores and
  announces a value, regenerates the channel's curve for knobs 0..3, and
  publishes the curve only when it passes the check. `get`, and `setup` with
  its built-in defaults, are modelled too.
- **Orthosis** (`orthosis.dfy`): the orchestrator. It covers the datagram
  parser and its status machine (0 disabled, 1 enabled, 3 running), the
  sensor and motor readiness counters, the routing of readings, and the main
  loop. The loop runs control frames at the sample rate and decimates
  telemetry and motor reads.

`wrappers.dfy` holds the `Option` type.

Modelling choices:

- Sockets, timers, threads and Qt signals are replaced by inputs and by
  ordered lists of `Action`s and `Event`s.
- The running time of the elapsed-time clock is a `now` argument in ms.
- Trigonometry is a function parameter: `Pvt.Shape` for the gait profile of
  `gen`, and `Orthosis.Trig` for `asin` and `cos` in the loop.
- Decoding a 24-byte datagram into three doubles is a function parameter.
- The four bytes of a sensor payload group are kept as opaque bytes.

## Model

| member | source | states |
|---|---|---|
| Ahrs.Circshift | Beaglebone/AHRS.cpp:79-88 | The window keeps its 42 bytes. Byte 0 is dropped, every other byte moves down one place, and the fresh byte lands at index 41. |
| Ahrs.SeedXor | Beaglebone/AHRS.cpp:122-127 | The first running checksum is the XOR of bytes 1..40 only; the header byte and the checksum byte are left out. |
| Ahrs.SourceUpdateIsShiftXor | Beaglebone/AHRS.cpp:131-133 | `XOR ^= checksum; circshift; XOR ^= ~header` is the general shift update with a drift of 0xFF per shift. |
| Ahrs.ShiftStep | Beaglebone/AHRS.cpp:131-133 | If the running value is the window's payload XOR offset by the drift for k shifts, one shift keeps it so for k+1 shifts. |
| Ahrs.ShiftIn | Beaglebone/AHRS.cpp:131-133 | One loop iteration moves the window to the next offset of the stream. The running value stays the payload XOR, complemented exactly when the number of shifts is odd. |
| Ahrs.SourceShiftStep | Beaglebone/AHRS.cpp:129-134 | The loop invariant is kept: after k shifts the window is bytes k..k+41 of the stream, and the running value is its payload XOR complemented when k is odd. |
| Ahrs.Slide | Beaglebone/AHRS.cpp:129-134 | The loop stops at the first accepted offset. Every earlier offset is rejected; when the stream runs out, no offset was accepted. |
| Ahrs.FindFrame | Beaglebone/AHRS.cpp:120-134 | The source's search returns the first window with header 0xFF and checksum equal to its running value, with the number of single-byte reads, or None. It agrees with the functional reference `Search`. |
| Ahrs.SearchSpec | Beaglebone/AHRS.cpp:124-134 | The functional search, for any drift, returns exactly the first accepted offset of the stream, or None when no full window is accepted. |
| Ahrs.SearchAgrees | Beaglebone/AHRS.cpp:124-134 | Any result that is the first accepted offset equals the functional search's result: the specification has one answer. |
| Ahrs.AlignedFrameAcceptedAtOnce | Beaglebone/AHRS.cpp:124-129 | A stream that begins with a valid frame is accepted with zero extra reads, whatever the drift. |
| Ahrs.EncodeValid | Beaglebone/AHRS.h:31-41 | Packing ten 4-byte groups behind header 0xFF with their XOR as checksum gives a valid frame whose groups are the ones packed. |
| Ahrs.ValidFrameIsEncoded | Beaglebone/AHRS.h:31-41 | Every valid frame is the packing of its own ten groups, so packing and group extraction are inverse. |
| Ahrs.NewLink | Beaglebone/AHRS.cpp:11-18 | A new link has an empty log and a ten-group `qout`. |
| Ahrs.Read | Beaglebone/AHRS.cpp:118-145 | With fewer than 42 bytes nothing happens. A search that runs out of stream consumes everything and saw no accepted window. Otherwise the consumed window is the first accepted one (header 0xFF, checksum equal to the running value) and the log gains exactly one row: the time and the ten groups. `qout` becomes those groups. With the intended update, the window is the first valid frame of the stream. |
| Ahrs.ReadDecodes | Beaglebone/AHRS.cpp:124-143 | The window the search accepts is the one the read consumes and logs: the stream is consumed up to that window's end, which holds a header and a matching checksum, no earlier window is accepted, and its groups become one new log row and `qout`. |
| Ahrs.SearchOutcome | Beaglebone/AHRS.cpp:124-134 | A read's search reports the first accepted offset of the stream, or that there is none. With the intended update, "accepted" means "a valid frame". |
| Ahrs.Log | Beaglebone/AHRS.cpp:136-143 | Every log channel gains exactly one entry and earlier rows are untouched. The new row is the time plus group j in channel j+1, and `qout` holds the groups. |
| Ahrs.Dump | Beaglebone/AHRS.cpp:148-171 | Every log channel ends up empty, whether or not the file opened. The rows are written out in order only when it opened. |
| Ahrs.AsWrittenMissesFrameAfterOneStrayByte | Beaglebone/AHRS.cpp:129-134 | Finding: with the complementing update, a valid frame behind one stray byte is never accepted. With the intended update the same stream yields that frame after one shift. |
| Ahrs.CorrectedSearchFindsFirstValidFrame | Beaglebone/AHRS.cpp:129-134 | With the intended update, the search returns the first valid frame of the stream, and None only when the stream holds no valid frame. |
| Pvt.Round | Beaglebone/PVT.cpp:64-66 | C `round`: the nearest integer, with halves rounded away from zero. |
| Pvt.Configure | Beaglebone/PVT.cpp:14-19 | `set` stores the interval count truncated to 16 bits, the gear ratio, and counts per output degree = qpr·ratio/360. The arrays are left unchanged. |
| Pvt.New | Beaglebone/PVT.cpp:8-11 | The constructor is `set` on empty arrays. |
| Pvt.StepLength | Beaglebone/PVT.cpp:47 | The interval length is a whole number of milliseconds, within half a millisecond of cl/ns. |
| Pvt.Gen | Beaglebone/PVT.cpp:44-72 | `gen` yields exactly ns+1 entries in each array, ending with the terminator (0, 0, 0). Entry i < ns samples the profile at the end of interval i, converted to counts and rpm. Every duration equals round(cl/ns·1000). |
| Pvt.GenIgnoresPreviousArrays | Beaglebone/PVT.cpp:50-52 | `gen` discards the previous arrays: its result depends only on ns, the gear ratio and the count scale. |
| Pvt.Check | Beaglebone/PVT.cpp:75-123 | `check` returns true exactly when the curve is feasible. Feasible means: the duration gate holds, no zero-length interval jumps, and the converted maxima are within both bounds. |
| Pvt.GateRejects | Beaglebone/PVT.cpp:86-87 | A duration above 255 ms, or a duration of at most 0 before the last interval, makes the curve infeasible. |
| Pvt.CheckStep | Beaglebone/PVT.cpp:89-113 | One interval folds its candidates into the running maxima and passes its end state on as the next start state. |
| Pvt.UpdateMaxima | Beaglebone/PVT.cpp:94-110 | The maxima become the larger of their old value and the interval's velocity or acceleration peak. A zero-length interval with a position jump is flagged, because its acceleration is infinite in IEEE arithmetic. |
| Pvt.FoldVelocity | Beaglebone/PVT.cpp:98-104 | The velocity maximum takes the end velocity, and the interior velocity v0 + b·t0 only when a ≠ 0 and 0 < t0 < dt. |
| Pvt.FoldAcceleration | Beaglebone/PVT.cpp:107-110 | The acceleration maximum takes the accelerations 2b and 2b + 6a·dt at the two ends of the interval. |
| Pvt.CubicFit | Beaglebone/PVT.cpp:94-95 | With a and b as computed, the cubic p0 + v0·t + b·t² + a·t³ starts at (p0, v0) and reaches (p1, v1) at dt. Its end accelerations are 2b and 2b + 6a·dt. |
| Pvt.NullAccPoint | Beaglebone/PVT.cpp:98-104 | At t0 = −b/(3a) the acceleration of the cubic vanishes and its velocity is v0 + b·t0. |
| Pvt.MaximaMonotone | Beaglebone/PVT.cpp:100-110 | The running maxima never decrease from one iteration to a later one. |
| Pvt.MaximaBoundPeaks | Beaglebone/PVT.cpp:100-110 | After the loop, mv ≥ \|v1_i\|, ma ≥ \|2b_i\| and ma ≥ \|2b_i + 6a_i·dt_i\| for every interval i. |
| Pvt.MaxVelAtMost | Beaglebone/PVT.cpp:100-104 | The velocity maximum is the least upper bound of the intervals' velocity peaks. |
| Pvt.MaxAccAtMost | Beaglebone/PVT.cpp:106-110 | The acceleration maximum is the least upper bound of the intervals' acceleration peaks. |
| Pvt.FeasibleIff | Beaglebone/PVT.cpp:83-122 | The verdict, interval by interval, holds exactly when all of these hold: the duration gate passes, there is no jump, both bounds are non-negative, and every interval's peaks (times grt/6) are within the bounds. |
| Pvt.FeasibleBoundsMotion | Beaglebone/PVT.cpp:93-122 | A passing check bounds the whole motion. At every instant of every positive-length interval, the fitted cubic's velocity and acceleration in motor units are within the bounds. |
| Pvt.CheckIgnoresTerminator | Beaglebone/PVT.cpp:83-91 | Only the first ns entries are read: the terminator, or anything else after the last interval, never changes the verdict. |
| Control.Trunc | Beaglebone/Control.cpp:86 | Storing a double into the int `nf` truncates toward zero. |
| Control.New | Beaglebone/Control.cpp:7 | A new controller is in stance with an empty trajectory. |
| Control.Tick | Beaglebone/Control.cpp:16-54 | In stance with the cursor inside the trajectory, a tick emits exactly one `motorAdd` for the waypoint at the cursor, duration taken modulo 256, and advances the cursor. Otherwise no waypoint is emitted. A swing starts iff the four-part trigger holds, restarting the swing clock. sFrm is counted after the trigger test, so a trigger tick ends with sFrm ∈ {0, 1}. A `motorRun` is emitted, with the cursor rewound and the mode back to stance, exactly when a swing (possibly one started in this tick) has lasted `it` seconds. Such a tick emits exactly one `motorRun(mcid)`, after the streamed waypoint if there is one; any other tick emits only that waypoint, if any. |
| Control.Reset | Beaglebone/Control.cpp:65-70 | `reset` gives stance with cursor 0 and sFrm 0, and changes nothing else. |
| Control.ParamGet | Beaglebone/Control.cpp:73-94 | A message for another channel changes nothing. On its own channel, slot 0..9 assigns exactly its field (slot 7 truncated), an unknown slot changes no knob, and ft = it + cd is recomputed. |
| Control.PvtGet | Beaglebone/Control.cpp:97-105 | On its own channel the three arrays are replaced wholesale; otherwise nothing changes. Mode, cursor and counter are never touched. |
| Control.StreamsInOrder | Beaglebone/Control.cpp:19-52 | Over any run of ticks that starts no trajectory, the events are exactly the waypoints from the starting cursor to the final cursor, in order, each once. The cursor never passes the end of the trajectory. A cursor already past the end, after a shorter trajectory arrived mid-stream, streams nothing and stays put. |
| Control.TickStreams | Beaglebone/Control.cpp:19-25 | A tick that starts no trajectory streams at most the waypoint at the cursor, and advances the cursor past exactly what it streamed. A cursor past the end of the trajectory streams nothing. |
| Param.Create | Beaglebone/Param.cpp:7-13 | The store starts with no knobs. Both curves have 6 intervals, gear ratio 160 and 4096 counts per revolution. |
| Param.CurveKnobs | Beaglebone/Param.cpp:120 | A channel's curve is generated from cl = knob 3, ks = knob 1, kw = knob 2 and kr = knob 0. |
| Param.Set | Beaglebone/Param.cpp:108-138 | `set` always stores the value and emits `paramSend` first. The other channel is untouched. For knob ≥ 4 it returns true with no curve work. For knob < 4 it regenerates only that channel's curve, keeping it even when infeasible, and emits `PVTSend` iff the curve is feasible against 12500 rpm and 10⁶ rpm/s. The result is false exactly when it is not. |
| Param.GetAfterSet | Beaglebone/Param.cpp:102-110 | `get` returns the value most recently stored by `set` for that channel and knob; every other knob reads as before. |
| Param.PublishedCurvesAreFeasible | Beaglebone/Param.cpp:118-134 | Every trajectory `set` publishes comes from a trajectory knob of the same channel and passes the check against the motor limits. |
| Param.Initial | Beaglebone/Param.cpp:77-90 | Each channel gets ten knobs: its column of the settings file, or else the defaults 40, 0.16, −0.1, 0.70, 0, 0.05, 0.25, 25, 10, 4 in slot order. |
| Param.ParamSends | Beaglebone/Param.cpp:96-97 | There is one `paramSend` per knob, in slot order. |
| Param.SetupChannel | Beaglebone/Param.cpp:77-98 | For one channel: append its knobs, regenerate its curve from them, and emit one unchecked `PVTSend` followed by a `paramSend` per knob. |
| Param.Setup | Beaglebone/Param.cpp:72-99 | The right channel is set up, then the left, and their announcements are emitted in that order. |
| Param.SetupWithoutFile | Beaglebone/Param.cpp:77-98 | Without a settings file, both channels hold exactly the ten defaults. 22 events follow: per channel one curve and then ten knobs in order. |
| Param.DefaultCurveDurations | Beaglebone/Param.cpp:83-92 | The default cycle of 0.70 s over 6 intervals gives six 117 ms durations and the terminator, which pass the duration gate. |
| Orthosis.RoundSkip | Beaglebone/Orthosis.cpp:42 | `int(x + 0.5)` rounds a non-negative skip ratio to the nearest integer. |
| Orthosis.Create | Beaglebone/Orthosis.cpp:14-110 | A new system is disabled with the loop timer off. The motor skip is sampRate/25 rounded. The store holds each channel's initial knobs, and the status-machine invariant holds. |
| Orthosis.CreateLoadsControllers | Beaglebone/Orthosis.cpp:66-70 | Because the store is wired to both controllers before `setup` (line 104), a new system's right controller holds the right channel's initial knobs (slot 7 truncated, ft = it + cd) and the trajectory published for that channel, and the left controller likewise the left channel's. Both start in stance at cursor 0. |
| Orthosis.SetupLoads | Beaglebone/Orthosis.cpp:66-70 | A controller that receives a store's `setup` signals (right channel first, then left) ends with its own channel's knobs and trajectory. The other channel's signals leave it untouched. |
| Orthosis.InitialStore | Beaglebone/Orthosis.cpp:104 | `setup` on a fresh store leaves each channel with exactly its initial knobs and emits well-shaped trajectories. |
| Orthosis.Deliver | Beaglebone/Orthosis.cpp:67-70 | Each store signal reaches a controller as `paramGet` or `PVTGet` and never moves its mode, cursor or counter. |
| Orthosis.DeliverAll | Beaglebone/Orthosis.cpp:67-70 | Delivering store signals in order keeps a controller streamable and never moves its mode, cursor or counter. |
| Orthosis.DeliverSet | Beaglebone/Orthosis.cpp:67-70 | After one `set`, each controller's knobs are those of `paramGet`. Its trajectory is replaced exactly when the set published a curve for its channel. |
| Orthosis.UntilNul | Beaglebone/Orthosis.cpp:255 | A text comparison sees the datagram up to its first NUL byte. |
| Orthosis.Parse | Beaglebone/Orthosis.cpp:255-341 | A command word is recognised only when the datagram's text is that word. A datagram is a parameter setting iff it is 24 bytes long and its text is no command word. |
| Orthosis.ParseWord | Beaglebone/Orthosis.cpp:255-324 | A command word, optionally followed by a NUL and anything at all, parses as that command. |
| Orthosis.ParamDatagramIsNoWord | Beaglebone/Orthosis.cpp:325-329 | A 24-byte datagram starting with a zero byte is always a parameter setting. |
| Orthosis.ExportParams | Beaglebone/Orthosis.cpp:260-267 | The reported list is the right channel's knobs 0..9, then the left's. |
| Orthosis.Hello | Beaglebone/Orthosis.cpp:255-280 | `Connect`/`Android` reply, in order: Ok, the status byte, then the 20 knobs. The telemetry skip becomes sampRate/25 rounded. Nothing else changes. |
| Orthosis.TurnOn | Beaglebone/Orthosis.cpp:281-296 | `On` acts only when disabled: it resets the motor-ready count, homes the motors and replies Ok. The status itself is unchanged. |
| Orthosis.TurnOff | Beaglebone/Orthosis.cpp:297-306 | `Off` acts only when enabled or running. It disables the system, saves the knobs, stops the loop, stops the motors, resets both controllers and replies Ok, in that order. |
| Orthosis.StartLoop | Beaglebone/Orthosis.cpp:307-315 | `Start` acts only when enabled. It makes the status running, clears telemetry and the three frame counters and the sensor-ready count, synchronises the sensors and replies Ok. |
| Orthosis.StopRun | Beaglebone/Orthosis.cpp:316-324 | `Stop` acts only when running: it makes the status enabled, stops the loop and replies Ok. |
| Orthosis.StopLoop | Beaglebone/Orthosis.cpp:146-164 | `stop` stops a running loop timer and asks the sensors to stop and both logs to be dumped. With the timer off it does nothing. |
| Orthosis.SetKnob | Beaglebone/Orthosis.cpp:325-337 | A 24-byte datagram with an index inside the store goes through `set`, its signals reach both controllers, and exactly one reply follows: Ok iff `set` returned true, else Err. |
| Orthosis.Dispatch | Beaglebone/Orthosis.cpp:248-343 | The sender becomes the command client. An unknown datagram changes nothing else and sends nothing. |
| Orthosis.DispatchAll | Beaglebone/Orthosis.cpp:250-342 | Pending datagrams are processed in arrival order, keeping the status-machine invariant. |
| Orthosis.StatusTransitions | Beaglebone/Orthosis.cpp:281-324 | The status moves only 1→3 on `Start`, 3→1 on `Stop` and nonzero→0 on `Off`, each acknowledged with Ok. No command leaves status 0. |
| Orthosis.DispatchKeepsInv | Beaglebone/Orthosis.cpp:248-343 | Commands keep the invariant: a nonzero status means both motors reported ready, and the loop timer runs only while running. |
| Orthosis.ConnectReportsLastSet | Beaglebone/Orthosis.cpp:255-337 | After a parameter datagram, the next `Connect` reports the new value in that knob's place, whether the client heard Ok or Err. |
| Orthosis.RejectedSetKeepsTrajectories | Beaglebone/Orthosis.cpp:325-337 | After an Err reply both controllers keep their trajectories, yet the knob still reaches them. |
| Orthosis.AcceptedCurveReachesController | Beaglebone/Orthosis.cpp:325-337 | After an Ok reply to a trajectory knob, that channel's controller streams the regenerated curve, which is feasible; the other controller keeps its own. |
| Orthosis.MotorReady | Beaglebone/Orthosis.cpp:235-239 | Each ready report counts one motor. The status becomes 1 exactly when the count reaches 2, and nothing else changes. |
| Orthosis.EnabledOnlyByMotors | Beaglebone/Orthosis.cpp:126-131 | The status becomes 1 only through `motorReady`, from 0. After `On`, the second ready report enables the system and the first does not. |
| Orthosis.RazorReadyAsWritten | Beaglebone/Orthosis.cpp:218-225 | As written, the second sensor report starts the loop timer and restarts the clock whatever the status. Only the ready count, the timer and the clock change. |
| Orthosis.AsWrittenLoopRunsWhileDisabled | Beaglebone/Orthosis.cpp:218-225 | Finding: `Start` then `Off` before both sensors report leaves the loop running on a disabled system, breaking the invariant. |
| Orthosis.RazorReady | Beaglebone/Orthosis.cpp:218-225 | Corrected: the second sensor report starts the timer and the clock only while running, so the invariant is kept. Only the ready count, the timer and the clock change. |
| Orthosis.RazorGet | Beaglebone/Orthosis.cpp:228-232 | Sensor 1's vector replaces q1 and sensor 2's replaces q2; other ids change nothing. |
| Orthosis.MotorGet | Beaglebone/Orthosis.cpp:242-245 | Motor id's angle replaces entry id−1, and the other entry is kept. |
| Orthosis.Read | Beaglebone/Orthosis.cpp:185-189 | The right pitch comes from q1. The left pitch is the negated pitch of q2. Each acceleration is the sensor's fifth value plus the cosine of its own pitch. |
| Orthosis.FrameTime | Beaglebone/Orthosis.cpp:182 | A frame's time stamp is cf sample periods. |
| Orthosis.FrameDueScaled | Beaglebone/Orthosis.cpp:179 | A due frame means, in integers, (now − start)·sampRate ≥ 1000·cf. |
| Orthosis.RunFrame | Beaglebone/Orthosis.cpp:179-204 | A frame stamps t = cf/sampRate and increments cf by one. The right controller gets (rPitch, lPitch, rAcc) and the left (lPitch, rPitch, lAcc). Telemetry stores the angles +35 and the accelerations ·10 + 35. |
| Orthosis.TelemetryPlaces | Beaglebone/Orthosis.cpp:196-200 | The telemetry vector holds the time, the two pitches offset by 35, and the two motor angles. |
| Orthosis.Pace | Beaglebone/Orthosis.cpp:206-214 | Telemetry is sent once exactly when cf ≥ pf, and pf then advances by pskip. A motor read happens once exactly when cf ≥ mf, and mf then advances by mskip. Both follow the frame's own actions, and nothing else is added. |
| Orthosis.Loop | Beaglebone/Orthosis.cpp:176-215 | A tick runs at most one frame and never before its time. A frame stamps t = cf/sampRate, ticks both controllers with the crossed readings, and its time update and motor events lead the tick's actions. Without a frame the controllers and telemetry are untouched, and only telemetry or a motor read can be sent. Each of telemetry and motor read is sent at most once, exactly when its mark is reached. |
| Orthosis.Loops | Beaglebone/Orthosis.cpp:176-215 | cf grows by at most one per tick. |
| Orthosis.PacedStep | Beaglebone/Orthosis.cpp:206-214 | One tick keeps pf and mf between cf and one skip ahead of it, and moves each mark by its skip per datagram sent. |
| Orthosis.Decimation | Beaglebone/Orthosis.cpp:206-214 | Over any run of ticks, k telemetry datagrams move pf by exactly k·pskip, and likewise for motor reads; the pacing bound is kept. |
| Orthosis.TelemetryRate | Beaglebone/Orthosis.cpp:206-214 | From `Start` (all counters zero), the k telemetry datagrams satisfy cf ≤ k·pskip ≤ cf + pskip, and likewise for motor reads with mskip. |
| Orthosis.ReadingsReachTelemetry | Beaglebone/Orthosis.cpp:186-203 | After `razorGet` and `motorGet`, the next frame reports the new motor angle and a pitch computed from the new sensor vector. |

## Left out

- IEEE 754 arithmetic. Both the feasibility check and the loop are modelled
  over exact reals.
  - Pvt.Check: when dt = 0 (only the last interval can have it), IEEE gives
    inf or NaN. This is modelled as "a position jump rejects the curve,
    otherwise the interval only contributes its end velocity".
  - Double rounding in `round(pos*qpd)` and in `cl/ns*1000` is not modelled.
- `abs` in the check is read as the real absolute value. Whether the C++
  overload set picks an integer `abs` is not modelled.
- Decoding a payload group as a binary32 float. Groups are opaque 4-byte
  values.
- Decoding the three doubles of a parameter datagram. This is a function
  parameter of `Dispatch`.
- The sine/cosine profile of `gen` and `quat2ang`'s `asin`. These are function
  parameters (`Pvt.Shape`, `Orthosis.Trig`); only the array shape and the
  routing are modelled.
- File I/O:
  - `Param::load`/`save`: the settings file is an optional input of `setup`;
    saving is a `SaveParams` action.
  - `AHRS::dump` and the motor dump: modelled as the rows written and the
    emptied log.
  - strftime file naming.
- The serial handshake in `AHRS::sync`/`clearBuffer` and the AHRS constructor.
- Waiting for bytes in `circshift`. `Ahrs.Read` searches the bytes it is
  given; a search that runs out reports `Blocked`, where the source would
  wait for more.
- The EPOS2 motor driver (`EPOS2.cpp`, `MotorConfig.h`), `Main.cpp`, thread
  start-up and signal wiring. Only the motor limits 12500 rpm and 10⁶ rpm/s
  are used.
- Console output: the "Unknown command"/"Unknown parameter" prints, `disp`,
  and the plot-rate print, whose division by `pskip` is undefined when
  `pskip` is 0.
- The exception handler around `On`. `enable` throws nothing that this model
  sees.
- Orthosis.SetKnob: a channel or knob index outside the store is undefined
  behaviour in the source (unchecked vector indexing). It is modelled as an
  `OutOfRange` action that changes nothing.
- Orthosis.Create: the source leaves `readyIMUs`, `readyMotors`, `cf`, `pf`,
  `mf` and `pskip` uninitialised. Here the counters start at 0, and `pskip`
  is a parameter until the first `Connect`.
- Control.New: the source leaves the controller's knobs (and the swing
  clock and elapsed time) unset until the first `paramGet`, so here the
  knobs are a parameter. The cursor and static-frame counter start at 0
  and the mode at stance, as Control.h:29 and Control.cpp:7 give. The
  motor id `mcid` comes from a static instance counter and is a parameter.
- Orthosis.Loop: the `unsigned long` counters cf, pf and mf and the
  `unsigned int` skips are unbounded naturals, so wrap-around is not
  modelled. The sample rate is a natural; with rate 0 no frame is ever due.
- Orthosis.MotorGet: only motor ids 1 and 2 are modelled. Any other id
  indexes outside the two-entry vector, which is undefined in the source.
- Qt's text conversion of a datagram is modelled only up to the first NUL
  byte. No UTF-8 decoding is done; the command words are ASCII.
- Pvt.Check: it requires a positive gear ratio and a nonzero count scale.
  Both are fixed by the constructor (160 and 4096·160/360).
- The `ft` knob of the controller is computed but never read; it is kept as
  a field.

## Findings

| source | as written | input that shows it | evidently intended | confidence | as-written member | corrected member |
|---|---|---|---|---|---|---|
| Beaglebone/AHRS.cpp:129-134 | After each shift the running checksum is updated with `XOR ^= ~u.header`. This complements it on every shift, so at an odd offset the running value is the payload XOR with every bit flipped. | One stray byte other than 0xFF followed by a valid 42-byte frame: the frame at offset 1 is never accepted. | `XOR ^= u.header`: remove the byte that left the payload, so the running value always equals the window's payload XOR, and the first valid frame is found. | not executed | Ahrs.AsWrittenMissesFrameAfterOneStrayByte | Ahrs.CorrectedSearchFindsFirstValidFrame |
| Beaglebone/Orthosis.cpp:218-225 | `razorReady` starts the loop timer and the clock on the second sensor report whatever the status. | From status 1: `Start`, then `Off` before both sensors have reported, then the two reports. The loop runs with status 0 and the motors stopped. `Off` alone no longer stops it: the loop runs until `On` and two motor reports re-enable the system and then `Off`, or `Start` then `Stop`, is sent. | Start the timer only while the status is 3 (running). | not executed | Orthosis.AsWrittenLoopRunsWhileDisabled | Orthosis.RazorReady |

=== FILE: ahrs.dfy ===
/** The orientation-sensor link: fixed-size frames carved out of a serial byte
    stream, resynchronised one byte at a time, and logged per channel until
    the session is dumped (Beaglebone/AHRS.h, Beaglebone/AHRS.cpp). */
module Ahrs {
  import opened Wrappers

  /** Number of 32-bit payload groups in a frame (NFLOATS). */
  const GroupCount: nat := 10
  /** Frame size, 4 * GroupCount + 2: header byte, four bytes per group,
      checksum byte (BUFSIZE). */
  const FrameSize: nat := 42
  /** The value a frame's first byte must carry. */
  const Header: bv8 := 0xFF
  /** What the running checksum drifts by on every shift as the source is
      written: `XOR ^= ~u.header` folds in the complement of the new header. */
  const Complement: bv8 := 0xFF
  /** The drift of the evidently intended update `XOR ^= u.header`. */
  const Exact: bv8 := 0x00

  /** One payload group: the four raw bytes of a packed float. */
  type Group = seq<bv8>

  /** XOR of all bytes of s. */
  function XorAll(s: seq<bv8>): bv8
    decreases |s|
  {
    if |s| == 0 then 0 else XorAll(s[..|s| - 1]) ^ s[|s| - 1]
  }

  lemma XorAllSnoc(s: seq<bv8>, b: bv8)
    ensures XorAll(s + [b]) == XorAll(s) ^ b
  {
    assert (s + [b])[..|s|] == s;
  }

  lemma {:induction false} XorAllCons(b: bv8, s: seq<bv8>)
    ensures XorAll([b] + s) == b ^ XorAll(s)
    decreases |s|
  {
    if |s| == 0 {
      assert ([b] + s)[..0] == [];
    } else {
      var s' := s[..|s| - 1];
      assert ([b] + s)[..|s|] == [b] + s';
      XorAllCons(b, s');
    }
  }

  /** XOR of the payload bytes 1..4*GroupCount of a window: neither the header
      nor the checksum byte takes part. */
  function PayloadXor(w: seq<bv8>): bv8
    requires |w| == FrameSize
  {
    XorAll(w[1..FrameSize - 1])
  }

  /** A frame as the sensor sends it: header 0xFF and a checksum byte equal to
      the XOR of the payload. */
  predicate ValidFrame(w: seq<bv8>)
  {
    |w| == FrameSize && w[0] == Header && w[FrameSize - 1] == PayloadXor(w)
  }

  /** Slide the window by one byte: drop byte 0, move every other byte down
      and put the freshly read byte b last. */
  function Circshift(w: seq<bv8>, b: bv8): (r: seq<bv8>)
    requires |w| == FrameSize
    ensures |r| == FrameSize
    ensures r[FrameSize - 1] == b
    ensures forall i :: 0 <= i < FrameSize - 1 ==> r[i] == w[i + 1]
  {
    w[1..] + [b]
  }

  /** The incremental update of the running value around one shift:
      `XOR ^= checksum; circshift; XOR ^= header ^ flip`. The source's
      `~u.header` is flip == Complement. */
  function ShiftXor(x: bv8, w: seq<bv8>, b: bv8, flip: bv8): bv8
    requires |w| == FrameSize
  {
    x ^ w[FrameSize - 1] ^ (Circshift(w, b)[0] ^ flip)
  }

  /** Every shift changes the running value exactly as the payload XOR
      changes, and additionally XORs in flip. */
  lemma ShiftXorDrift(x: bv8, w: seq<bv8>, b: bv8, flip: bv8)
    requires |w| == FrameSize
    ensures ShiftXor(x, w, b, flip)
            == x ^ PayloadXor(w) ^ PayloadXor(Circshift(w, b)) ^ flip
  {
    var mid := w[2..FrameSize - 1];
    ShiftSlices(w, b);
    XorAllCons(w[1], mid);
    XorAllSnoc(mid, w[FrameSize - 1]);
  }

  /** The payload of the shifted window is the old payload without its first
      byte, followed by the old checksum byte. */
  lemma ShiftSlices(w: seq<bv8>, b: bv8)
    requires |w| == FrameSize
    ensures w[1..FrameSize - 1] == [w[1]] + w[2..FrameSize - 1]
    ensures Circshift(w, b)[1..FrameSize - 1] == w[2..FrameSize - 1] + [w[FrameSize - 1]]
    ensures Circshift(w, b)[0] == w[1]
  {
  }

  /** The offset of the running value from the true payload XOR after k
      shifts: flip when k is odd, nothing when k is even. */
  function Drift(flip: bv8, k: nat): bv8
  {
    if k % 2 == 1 then flip else 0
  }

  /** A window accepted by the search: `u.header == 255 && u.checksum == XOR`. */
  predicate Accepts(w: seq<bv8>, x: bv8)
    requires |w| == FrameSize
  {
    w[0] == Header && w[FrameSize - 1] == x
  }

  /** The window the search accepts, and how many single-byte reads it took
      after the first full-frame read. */
  datatype Found = Found(frame: seq<bv8>, shifts: nat)

  /** The window at offset k of s is accepted by a search whose running value
      drifts by flip per shift. */
  predicate MatchAt(s: seq<bv8>, k: nat, flip: bv8)
    requires k + FrameSize <= |s|
  {
    s[k] == Header && s[k + FrameSize - 1] == PayloadXor(s[k..k + FrameSize]) ^ Drift(flip, k)
  }

  /** r is what a search of s must return: the first accepted offset, or None
      when no full window of s is accepted. */
  ghost predicate IsFirstMatch(s: seq<bv8>, flip: bv8, r: Option<Found>)
  {
    match r
    case None =>
      forall j: nat :: j + FrameSize <= |s| ==> !MatchAt(s, j, flip)
    case Some(f) =>
      && f.shifts + FrameSize <= |s|
      && f.frame == s[f.shifts..f.shifts + FrameSize]
      && MatchAt(s, f.shifts, flip)
      && forall j: nat :: j < f.shifts ==> !MatchAt(s, j, flip)
  }

  lemma FirstMatchUnique(s: seq<bv8>, flip: bv8, r1: Option<Found>, r2: Option<Found>)
    requires IsFirstMatch(s, flip, r1) && IsFirstMatch(s, flip, r2)
    ensures r1 == r2
  {
    if r1.Some? {
      assert MatchAt(s, r1.value.shifts, flip);
    }
    if r2.Some? {
      assert MatchAt(s, r2.value.shifts, flip);
    }
  }

  /** The resynchronising search from window w with running value x; rest is
      the stream still to be read one byte at a time. None: the stream ran
      out first (the source would block waiting for the next byte). */
  function SearchFrom(w: seq<bv8>, x: bv8, rest: seq<bv8>, k: nat, flip: bv8): Option<Found>
    requires |w| == FrameSize
    decreases |rest|
  {
    if Accepts(w, x) then Some(Found(w, k))
    else if |rest| == 0 then None
    else SearchFrom(Circshift(w, rest[0]), ShiftXor(x, w, rest[0], flip), rest[1..], k + 1, flip)
  }

  /** Read a full window, seed the running value with its payload XOR and
      slide until a window is accepted. */
  function Search(s: seq<bv8>, flip: bv8): Option<Found>
  {
    if |s| < FrameSize then None
    else SearchFrom(s[..FrameSize], PayloadXor(s[..FrameSize]), s[FrameSize..], 0, flip)
  }

  /** One shift keeps the running value tied to the window it belongs to:
      the drift toggles between 0 and flip. */
  lemma ShiftStep(w: seq<bv8>, x: bv8, b: bv8, k: nat, flip: bv8)
    requires |w| == FrameSize
    requires x == PayloadXor(w) ^ Drift(flip, k)
    ensures ShiftXor(x, w, b, flip) == PayloadXor(Circshift(w, b)) ^ Drift(flip, k + 1)
  {
    ShiftRunningValue(x, w, b, flip, Drift(flip, k));
    DriftToggles(flip, k);
  }

  /** Shifting the window at offset k of a stream in the byte after it gives
      the window at offset k + 1. */
  lemma CircshiftSlides(s: seq<bv8>, k: nat)
    requires k + FrameSize < |s|
    ensures Circshift(s[k..k + FrameSize], s[k + FrameSize]) == s[k + 1..k + 1 + FrameSize]
  {
  }

  /** A running value that is the payload XOR offset by d becomes, after one
      shift, the new payload XOR offset by d ^ flip. */
  lemma ShiftRunningValue(x: bv8, w: seq<bv8>, b: bv8, flip: bv8, d: bv8)
    requires |w| == FrameSize
    requires x == PayloadXor(w) ^ d
    ensures ShiftXor(x, w, b, flip) == PayloadXor(Circshift(w, b)) ^ (d ^ flip)
  {
    ShiftXorDrift(x, w, b, flip);
  }


  lemma DriftToggles(flip: bv8, k: nat)
    ensures Drift(flip, k) ^ flip == Drift(flip, k + 1)
  {
  }

  lemma {:induction false} SearchFromSpec(s: seq<bv8>, w: seq<bv8>, x: bv8, rest: seq<bv8>, k: nat, flip: bv8)
    requires k + FrameSize <= |s|
    requires w == s[k..k + FrameSize] && rest == s[k + FrameSize..]
    requires x == PayloadXor(w) ^ Drift(flip, k)
    requires forall j: nat :: j < k ==> !MatchAt(s, j, flip)
    ensures IsFirstMatch(s, flip, SearchFrom(w, x, rest, k, flip))
    decreases |rest|
  {
    var r := SearchFrom(w, x, rest, k, flip);
    assert Accepts(w, x) <==> MatchAt(s, k, flip);
    if Accepts(w, x) {
      assert r == Some(Found(w, k));
    } else if |rest| == 0 {
      assert r == None;
      forall j: nat | j + FrameSize <= |s|
        ensures !MatchAt(s, j, flip)
      {
        assert j <= k;
      }
    } else {
      var w', x' := Circshift(w, rest[0]), ShiftXor(x, w, rest[0], flip);
      assert r == SearchFrom(w', x', rest[1..], k + 1, flip);
      ShiftStep(w, x, rest[0], k, flip);
      SlideNext(s, k, w, rest);
      NoMatchThrough(s, k, flip);
      SearchFromSpec(s, w', x', rest[1..], k + 1, flip);
    }
  }

  /** The next window and the rest of the stream after one single-byte read. */
  lemma SlideNext(s: seq<bv8>, k: nat, w: seq<bv8>, rest: seq<bv8>)
    requires k + FrameSize <= |s|
    requires w == s[k..k + FrameSize] && rest == s[k + FrameSize..] && |rest| > 0
    ensures Circshift(w, rest[0]) == s[k + 1..k + 1 + FrameSize]
    ensures rest[1..] == s[k + 1 + FrameSize..]
  {
    assert rest[0] == s[k + FrameSize];
    CircshiftSlides(s, k);
  }

  /** No match before k and none at k: none before k + 1. */
  lemma NoMatchThrough(s: seq<bv8>, k: nat, flip: bv8)
    requires k + FrameSize <= |s|
    requires forall j: nat :: j < k ==> !MatchAt(s, j, flip)
    requires !MatchAt(s, k, flip)
    ensures forall j: nat :: j < k + 1 ==> !MatchAt(s, j, flip)
  {
  }

  /** The search returns exactly the first accepted offset of the stream. */
  lemma SearchSpec(s: seq<bv8>, flip: bv8)
    ensures IsFirstMatch(s, flip, Search(s, flip))
  {
    if |s| >= FrameSize {
      SearchFromSpec(s, s[..FrameSize], PayloadXor(s[..FrameSize]), s[FrameSize..], 0, flip);
    }
  }

  /** The window at offset j of s is a valid frame. */
  predicate ValidAt(s: seq<bv8>, j: nat)
    requires j + FrameSize <= |s|
  {
    ValidFrame(s[j..j + FrameSize])
  }

  /** With the corrected update the search accepts precisely the valid frames:
      it returns the first valid frame of the stream, or None when the stream
      holds none. */
  lemma CorrectedSearchFindsFirstValidFrame(s: seq<bv8>)
    ensures Search(s, Exact).Some? ==>
              var f := Search(s, Exact).value;
              && f.shifts + FrameSize <= |s|
              && f.frame == s[f.shifts..f.shifts + FrameSize]
              && ValidFrame(f.frame)
              && forall j: nat :: j < f.shifts ==> !ValidAt(s, j)
    ensures Search(s, Exact).None? ==>
              forall j: nat :: j + FrameSize <= |s| ==> !ValidAt(s, j)
  {
    SearchSpec(s, Exact);
    forall j: nat | j + FrameSize <= |s|
      ensures MatchAt(s, j, Exact) <==> ValidAt(s, j)
    {
    }
  }

  /** The first pass of AHRS::read: XOR of bytes 1..40 of the window, header
      and checksum byte excluded. */
  method SeedXor(w: seq<bv8>) returns (x: bv8)
    requires |w| == FrameSize
    ensures x == PayloadXor(w)
  {
    x := 0;
    var i := 1;
    while i < FrameSize - 1
      invariant 1 <= i <= FrameSize - 1
      invariant x == XorAll(w[1..i])
    {
      assert w[1..i + 1] == w[1..i] + [w[i]];
      XorAllSnoc(w[1..i], w[i]);
      x := x ^ w[i];
      i := i + 1;
    }
  }

  /** A window the search rejects is not a match at its offset. */
  lemma RejectedWindow(s: seq<bv8>, k: nat, w: seq<bv8>, x: bv8, flip: bv8)
    requires k + FrameSize <= |s|
    requires w == s[k..k + FrameSize]
    requires x == PayloadXor(w) ^ Drift(flip, k)
    ensures Accepts(w, x) <==> MatchAt(s, k, flip)
  {
    WindowEnds(s, k, w);
  }

  lemma WindowEnds(s: seq<bv8>, k: nat, w: seq<bv8>)
    requires k + FrameSize <= |s|
    requires w == s[k..k + FrameSize]
    ensures w[0] == s[k] && w[FrameSize - 1] == s[k + FrameSize - 1]
  {
  }

  /** One iteration of the source's loop body keeps the loop invariant. */
  lemma SourceShiftStep(s: seq<bv8>, k: nat, w: seq<bv8>, x: bv8, w': seq<bv8>, x': bv8)
    requires k + FrameSize < |s|
    requires w == s[k..k + FrameSize]
    requires x == PayloadXor(w) ^ Drift(Complement, k)
    requires w' == Circshift(w, s[k + FrameSize])
    requires x' == (x ^ w[FrameSize - 1]) ^ !w'[0]
    ensures w' == s[k + 1..k + 1 + FrameSize]
    ensures x' == PayloadXor(w') ^ Drift(Complement, k + 1)
  {
    ShiftStep(w, x, s[k + FrameSize], k, Complement);
    CircshiftSlides(s, k);
    SourceUpdateIsShiftXor(x, w, s[k + FrameSize]);
  }

  /** `XOR ^= checksum; circshift; XOR ^= ~header` is ShiftXor with the
      Complement drift. */
  lemma SourceUpdateIsShiftXor(x: bv8, w: seq<bv8>, b: bv8)
    requires |w| == FrameSize
    ensures (x ^ w[FrameSize - 1]) ^ !Circshift(w, b)[0] == ShiftXor(x, w, b, Complement)
  {
  }

  /** The source's search loop (AHRS::read): seed the running value, then
      slide the window until accepted, updating the running value with
      `XOR ^= checksum` and `XOR ^= ~header` around each shift. Running out
      of stream, where the source blocks, yields None. */
  method FindFrame(s: seq<bv8>) returns (r: Option<Found>)
    ensures IsFirstMatch(s, Complement, r)
    ensures r == Search(s, Complement)
  {
    if |s| < FrameSize {
      r := None;
    } else {
      var w, k, found := Slide(s);
      r := if found then Some(Found(w, k)) else None;
    }
    SearchAgrees(s, r);
  }

  /** The loop of FindFrame: the window w at offset k is the first accepted
      one when found, and no window of s is accepted otherwise. */
  method Slide(s: seq<bv8>) returns (w: seq<bv8>, k: nat, found: bool)
    requires FrameSize <= |s|
    ensures k + FrameSize <= |s| && w == s[k..k + FrameSize]
    ensures forall j: nat :: j < k ==> !MatchAt(s, j, Complement)
    ensures found ==> MatchAt(s, k, Complement)
    ensures !found ==> k + FrameSize == |s| && !MatchAt(s, k, Complement)
  {
    w := s[..FrameSize];
    var x := SeedXor(w);
    k := 0;
    found := Accepts(w, x);
    while !found && k + FrameSize < |s|
      invariant k + FrameSize <= |s|
      invariant w == s[k..k + FrameSize]
      invariant x == PayloadXor(w) ^ Drift(Complement, k)
      invariant found == Accepts(w, x)
      invariant forall j: nat :: j < k ==> !MatchAt(s, j, Complement)
      decreases |s| - k
    {
      RejectedWindow(s, k, w, x, Complement);
      NoMatchThrough(s, k, Complement);
      w, x := ShiftIn(s, k, w, x);
      k := k + 1;
      found := Accepts(w, x);
    }
    RejectedWindow(s, k, w, x, Complement);
  }

  /** One resynchronisation step of the loop body: `XOR ^= checksum`,
      shift in the next byte of the stream, `XOR ^= ~header`. */
  method ShiftIn(s: seq<bv8>, k: nat, w: seq<bv8>, x: bv8) returns (w': seq<bv8>, x': bv8)
    requires k + FrameSize < |s|
    requires w == s[k..k + FrameSize]
    requires x == PayloadXor(w) ^ Drift(Complement, k)
    ensures w' == s[k + 1..k + 1 + FrameSize]
    ensures x' == PayloadXor(w') ^ Drift(Complement, k + 1)
  {
    x' := x ^ w[FrameSize - 1];
    w' := Circshift(w, s[k + FrameSize]);
    x' := x' ^ !w'[0];
    SourceShiftStep(s, k, w, x, w', x');
  }

  /** Whatever satisfies the first-match specification is what Search returns. */
  lemma SearchAgrees(s: seq<bv8>, r: Option<Found>)
    requires IsFirstMatch(s, Complement, r)
    ensures r == Search(s, Complement)
  {
    SearchSpec(s, Complement);
    FirstMatchUnique(s, Complement, r, Search(s, Complement));
  }

  /** As written, the running value after k shifts is the payload XOR of the
      current window complemented when k is odd, so a valid frame preceded by
      one stray byte is passed over, while the corrected update finds it after
      one read. */
  lemma AsWrittenMissesFrameAfterOneStrayByte(gs: seq<Group>, g: bv8)
    requires WellShapedGroups(gs)
    requires g != Header
    ensures Search([g] + Encode(gs), Complement).None?
    ensures Search([g] + Encode(gs), Exact) == Some(Found(Encode(gs), 1))
  {
    EncodeValid(gs);
    StrayByteMatches(g, Encode(gs));
    var s := [g] + Encode(gs);
    FirstMatchUnique(s, Complement, None, Search(s, Complement)) by {
      SearchSpec(s, Complement);
    }
    FirstMatchUnique(s, Exact, Some(Found(Encode(gs), 1)), Search(s, Exact)) by {
      SearchSpec(s, Exact);
    }
  }

  /** A valid frame f behind one stray byte: the complementing search
      accepts no window, the exact one accepts the window at offset 1 first. */
  lemma StrayByteMatches(g: bv8, f: seq<bv8>)
    requires ValidFrame(f) && g != Header
    ensures IsFirstMatch([g] + f, Complement, None)
    ensures IsFirstMatch([g] + f, Exact, Some(Found(f, 1)))
  {
    var s := [g] + f;
    StrayByteSlices(g, f);
    StrayWindow(s, g, f, Complement);
    StrayWindow(s, g, f, Exact);
    forall j: nat | j + FrameSize <= |s|
      ensures !MatchAt(s, j, Complement)
    {
      assert j == 0 || j == 1;
    }
  }

  /** The two windows of a stray byte followed by a valid frame. */
  lemma StrayWindow(s: seq<bv8>, g: bv8, f: seq<bv8>, flip: bv8)
    requires ValidFrame(f) && g != Header && s == [g] + f
    requires s[1..1 + FrameSize] == f && s[0] == g && s[FrameSize] == f[FrameSize - 1]
    ensures !MatchAt(s, 0, flip)
    ensures MatchAt(s, 1, flip) <==> flip == Exact
  {
  }

  lemma StrayByteSlices(g: bv8, f: seq<bv8>)
    requires |f| == FrameSize
    ensures |[g] + f| == FrameSize + 1
    ensures ([g] + f)[0] == g
    ensures ([g] + f)[1..1 + FrameSize] == f
    ensures ([g] + f)[FrameSize] == f[FrameSize - 1]
  {
  }

  // ---------------------------------------------------------------------------
  // Frame contents

  /** Ten groups of four bytes each: the payload shape of a frame. */
  predicate WellShapedGroups(gs: seq<Group>)
  {
    |gs| == GroupCount && forall j :: 0 <= j < |gs| ==> |gs[j]| == 4
  }

  /** Group j of a window is bytes 1+4j..4+4j (the packed `float q[NFLOATS]`). */
  function Groups(w: seq<bv8>): (gs: seq<Group>)
    requires |w| == FrameSize
    ensures WellShapedGroups(gs)
  {
    seq(GroupCount, j requires 0 <= j < GroupCount => w[1 + 4 * j..5 + 4 * j])
  }

  function Flatten(gs: seq<Group>): seq<bv8>
    decreases |gs|
  {
    if |gs| == 0 then [] else Flatten(gs[..|gs| - 1]) + gs[|gs| - 1]
  }

  lemma {:induction false} FlattenIndex(gs: seq<Group>)
    requires forall j :: 0 <= j < |gs| ==> |gs[j]| == 4
    ensures |Flatten(gs)| == 4 * |gs|
    ensures forall j, m :: 0 <= j < |gs| && 0 <= m < 4 ==> Flatten(gs)[4 * j + m] == gs[j][m]
    decreases |gs|
  {
    if |gs| > 0 {
      FlattenIndex(gs[..|gs| - 1]);
    }
  }

  /** The frame the sensor sends for a payload: header, the groups in order,
      and their XOR as checksum. */
  function Encode(gs: seq<Group>): (f: seq<bv8>)
    requires WellShapedGroups(gs)
    ensures |f| == FrameSize
  {
    FlattenIndex(gs);
    [Header] + Flatten(gs) + [XorAll(Flatten(gs))]
  }

  /** Encoding yields a valid frame whose groups are the payload: decoding
      reproduces the ten groups exactly. */
  lemma EncodeValid(gs: seq<Group>)
    requires WellShapedGroups(gs)
    ensures ValidFrame(Encode(gs))
    ensures Groups(Encode(gs)) == gs
  {
    var f := Encode(gs);
    FlattenIndex(gs);
    assert f[1..FrameSize - 1] == Flatten(gs);
    forall j | 0 <= j < GroupCount
      ensures Groups(f)[j] == gs[j]
    {
      EncodeGroup(gs, j);
    }
  }

  /** Group j of an encoding is the j-th payload group. */
  lemma EncodeGroup(gs: seq<Group>, j: int)
    requires WellShapedGroups(gs) && 0 <= j < GroupCount
    ensures Groups(Encode(gs))[j] == gs[j]
  {
    var f, fl := Encode(gs), Flatten(gs);
    FlattenIndex(gs);
    var g := Groups(f)[j];
    assert g == f[1 + 4 * j..5 + 4 * j];
    forall m | 0 <= m < 4
      ensures g[m] == gs[j][m]
    {
      assert g[m] == f[1 + 4 * j + m];
      assert f[1 + 4 * j + m] == fl[4 * j + m];
    }
  }

  /** Every valid frame is the encoding of its own groups. */
  lemma ValidFrameIsEncoded(f: seq<bv8>)
    requires ValidFrame(f)
    ensures Encode(Groups(f)) == f
  {
    var gs := Groups(f);
    FlattenIndex(gs);
    forall i | 0 <= i < FrameSize - 2
      ensures Flatten(gs)[i] == f[1 + i]
    {
      var j, m := i / 4, i % 4;
      assert i == 4 * j + m;
      assert Flatten(gs)[4 * j + m] == gs[j][m];
    }
    assert Flatten(gs) == f[1..FrameSize - 1];
  }

  /** A stream that begins with a valid frame is accepted with zero extra
      reads, whatever follows and whichever update is used. */
  lemma AlignedFrameAcceptedAtOnce(gs: seq<Group>, tail: seq<bv8>, flip: bv8)
    requires WellShapedGroups(gs)
    ensures Search(Encode(gs) + tail, flip) == Some(Found(Encode(gs), 0))
  {
    EncodeValid(gs);
    assert (Encode(gs) + tail)[..FrameSize] == Encode(gs);
  }

  // ---------------------------------------------------------------------------
  // The link: logging and dumping

  /** One sensor link: its id, the per-channel session log (channel 0 holds
      times, channels 1..10 the groups; kept here as a time column and ten
      group columns) and the last sample sent upward (`qout`). */
  datatype Link = Link(id: int, times: seq<real>, columns: seq<seq<Group>>, qout: seq<Group>)

  /** Every column holds one entry per logged time. */
  predicate WellFormed(l: Link)
  {
    && |l.columns| == GroupCount
    && |l.qout| == GroupCount
    && forall ch :: 0 <= ch < GroupCount ==> |l.columns[ch]| == |l.times|
  }

  /** One logged sample: a time and its ten groups. */
  datatype Row = Row(time: real, values: seq<Group>)

  /** The log read row by row, as the dump writes it out. */
  function Rows(l: Link): seq<Row>
    requires WellFormed(l)
  {
    seq(|l.times|, i requires 0 <= i < |l.times| =>
      Row(l.times[i], seq(GroupCount, ch requires 0 <= ch < GroupCount => l.columns[ch][i])))
  }

  /** A freshly constructed link: empty log, qout ten zero floats. */
  function NewLink(id: int): (l: Link)
    ensures WellFormed(l) && Rows(l) == []
    ensures l.id == id && |l.qout| == GroupCount
  {
    Link(id, [], seq(GroupCount, _ => []), seq(GroupCount, _ => [0, 0, 0, 0]))
  }

  datatype ReadOutcome =
    | Idle                                                   // fewer than a frame's bytes available
    | Blocked(consumed: nat)                                 // search ran out of stream
    | Decoded(link: Link, consumed: nat, sample: seq<Group>) // a frame was accepted and logged

  /** AHRS::read on the bytes available now (and, for the resynchronising
      reads, those that will arrive): t is the shared time set by the
      orchestrator, flip the drift of the running checksum on each shift,
      Complement as the source updates it and Exact as intended. A decoded
      frame is the first accepted window; with Exact it is the first valid
      frame of the stream, and a blocked search saw none. */
  function Read(l: Link, t: real, avail: seq<bv8>, flip: bv8): (o: ReadOutcome)
    requires WellFormed(l)
    ensures o.Idle? <==> |avail| < FrameSize
    ensures o.Blocked? ==>
              o.consumed == |avail| && forall j: nat :: j + FrameSize <= |avail| ==> !MatchAt(avail, j, flip)
    ensures o.Decoded? ==> DecodedFirst(l, t, avail, flip, o.link, o.consumed, o.sample)
    ensures flip == Exact && o.Blocked? ==>
              forall j: nat :: j + FrameSize <= |avail| ==> !ValidAt(avail, j)
  {
    if |avail| < FrameSize then Idle
    else
      SearchOutcome(avail, flip);
      match Search(avail, flip)
      case None => Blocked(|avail|)
      case Some(found) =>
        ReadDecodes(l, t, avail, flip);
        var gs := Groups(found.frame);
        Decoded(Log(l, t, gs), FrameSize + found.shifts, gs)
  }

  /** What a decoded read did: it consumed the stream up to the end of the
      first accepted window (with Exact, the first valid frame), and logged
      that window's groups as one new row and as `qout`. */
  predicate DecodedFirst(l: Link, t: real, avail: seq<bv8>, flip: bv8, link: Link, consumed: nat, sample: seq<Group>)
    requires WellFormed(l)
  {
    && FrameSize <= consumed <= |avail|
    && var k := consumed - FrameSize;
       var f := avail[k..consumed];
       && f[0] == Header
       && f[FrameSize - 1] == PayloadXor(f) ^ Drift(flip, k)
       && (forall j: nat :: j < k ==> !MatchAt(avail, j, flip))
       && sample == Groups(f)
       && WellFormed(link)
       && link.qout == sample
       && link.id == l.id
       && Rows(link) == Rows(l) + [Row(t, sample)]
       && (flip == Exact ==> ValidAt(avail, k) && forall j: nat :: j < k ==> !ValidAt(avail, j))
  }

  /** The window a read's search accepts is the one it decodes and logs. */
  lemma ReadDecodes(l: Link, t: real, avail: seq<bv8>, flip: bv8)
    requires WellFormed(l) && Search(avail, flip).Some?
    ensures var found := Search(avail, flip).value;
            && |found.frame| == FrameSize
            && DecodedFirst(l, t, avail, flip, Log(l, t, Groups(found.frame)), FrameSize + found.shifts,
                            Groups(found.frame))
  {
    SearchOutcome(avail, flip);
  }

  /** What the search of a read reports, in terms of offsets of the stream. */
  lemma SearchOutcome(avail: seq<bv8>, flip: bv8)
    ensures Search(avail, flip).None? ==>
              (forall j: nat :: j + FrameSize <= |avail| ==> !MatchAt(avail, j, flip)) &&
              (flip == Exact ==> forall j: nat :: j + FrameSize <= |avail| ==> !ValidAt(avail, j))
    ensures Search(avail, flip).Some? ==>
              var k := Search(avail, flip).value.shifts;
              && k + FrameSize <= |avail|
              && Search(avail, flip).value.frame == avail[k..k + FrameSize]
              && MatchAt(avail, k, flip)
              && (forall j: nat :: j < k ==> !MatchAt(avail, j, flip))
              && (flip == Exact ==> ValidAt(avail, k) && forall j: nat :: j < k ==> !ValidAt(avail, j))
  {
    SearchSpec(avail, flip);
    CorrectedSearchFindsFirstValidFrame(avail);
  }

  /** The logging half of a read: each group appended to its channel
      column, the time to the time column, and the sample kept as `qout`. */
  function Log(l: Link, t: real, gs: seq<Group>): (l': Link)
    requires WellFormed(l) && |gs| == GroupCount
    ensures WellFormed(l') && l'.id == l.id && l'.qout == gs
    ensures Rows(l') == Rows(l) + [Row(t, gs)]
  {
    var l' := l.(times := l.times + [t],
                 columns := seq(GroupCount, ch requires 0 <= ch < GroupCount => l.columns[ch] + [gs[ch]]),
                 qout := gs);
    assert Rows(l') == Rows(l) + [Row(t, gs)] by {
      assert |Rows(l')| == |Rows(l)| + 1;
      forall i | 0 <= i < |Rows(l)|
        ensures Rows(l')[i] == Rows(l)[i]
      {
      }
      assert Rows(l')[|Rows(l)|].values == gs;
    }
    l'
  }

  /** AHRS::dump: writes the log as rows when the output file opens, and in
      every case empties every column. */
  function Dump(l: Link, fileOpen: bool): (r: (Link, seq<Row>))
    requires WellFormed(l)
    ensures WellFormed(r.0) && Rows(r.0) == []
    ensures forall ch :: 0 <= ch < GroupCount ==> r.0.columns[ch] == []
    ensures r.0.id == l.id && r.0.qout == l.qout
    ensures fileOpen ==> r.1 == Rows(l)
    ensures !fileOpen ==> r.1 == []
  {
    (l.(times := [], columns := seq(GroupCount, _ => [])), if fileOpen then Rows(l) else [])
  }
}

=== FILE: control.dfy ===
/** The per-leg gait-phase controller: a STANCE/SWING state machine fed one
    sensor frame per tick, streaming trajectory waypoints to its motor while
    in stance and starting the motor's trajectory when a swing times out
    (Beaglebone/Control.h, Beaglebone/Control.cpp). Emitted signals become
    an event list; the elapsed-time clock becomes a `now` input in ms. */
module Control {

  import Pvt

  datatype Mode = Stance | Swing

  /** The controller's parameters, slot by slot as the remote interface
      numbers them: 0 kr knee flexion, 1 ks, 2 kw, 3 cd cycle duration,
      4 it swing time, 5 st static-acceleration threshold, 6 mt trigger
      acceleration, 7 nf static-frame count, 8 tw own-ankle threshold,
      9 tp opposite-ankle threshold; ft = it + cd is derived. */
  datatype Gains = Gains(kr: real, ks: real, kw: real, cd: real, it: real, st: real,
                         mt: real, nf: int, tw: real, tp: real, ft: real)

  /** mcid is the motor id (the channel number plus one); timerStart is the
      clock reading when the current swing began and t the last elapsed
      swing time (s); i is the waypoint cursor and sFrm the run of static
      frames. */
  datatype Controller = Controller(mcid: int, mode: Mode, timerStart: int, t: real,
                                   P: seq<int>, V: seq<int>, T: seq<int>,
                                   g: Gains, i: nat, sFrm: nat)

  /** `motorAdd(id, pos, vel, dt)` queues one waypoint, dt being the low byte
      of the duration; `motorRun(id)` starts the queued trajectory. */
  datatype Event = MotorAdd(id: int, pos: int, vel: int, dt: int) | MotorRun(id: int)

  datatype Step = Step(c: Controller, out: seq<Event>)

  /** The frame a tick receives: own and opposite ankle angle, own
      acceleration, and the clock reading (ms). */
  datatype Frame = Frame(ownAnk: real, oppAnk: real, ownAcc: real, now: int)

  /** C conversion of a double to int: truncation toward zero. */
  function Trunc(x: real): (r: int)
    ensures x >= 0.0 ==> r as real <= x < r as real + 1.0
    ensures x < 0.0 ==> r as real - 1.0 < x <= r as real
  {
    if x >= 0.0 then x.Floor else -((-x).Floor)
  }

  /** A new controller: stance, cursor and counter at zero, no trajectory.
      The parameters are whatever the caller supplies (the source leaves
      them uninitialised until the first `paramGet`). */
  function New(mcid: int, g: Gains): (c: Controller)
    ensures c.mcid == mcid && c.g == g && c.mode == Stance
    ensures c.i == 0 && c.sFrm == 0 && c.T == [] && c.P == [] && c.V == []
  {
    Controller(mcid, Stance, 0, 0.0, [], [], [], g, 0, 0)
  }

  /** What a tick needs: a waypoint for every duration. */
  predicate Streamable(c: Controller)
  {
    |c.T| <= |c.P| && |c.T| <= |c.V|
  }

  /** The waypoint event for index j of the trajectory. */
  function Waypoint(c: Controller, j: int): Event
    requires 0 <= j < |c.T| && Streamable(c)
  {
    MotorAdd(c.mcid, c.P[j], c.V[j], c.T[j] % 256)
  }

  /** The swing trigger: own ankle forward enough, opposite ankle back
      enough, more than nf static frames, and a sharp backward acceleration. */
  predicate Triggers(c: Controller, f: Frame)
  {
    f.ownAnk >= c.g.tw && f.oppAnk <= c.g.tp && c.sFrm > c.g.nf && f.ownAcc < -c.g.mt
  }

  /** Elapsed swing time (s) at clock reading now. */
  function SwingTime(c: Controller, now: int): real
  {
    (now - c.timerStart) as real / 1000.0
  }

  /** One tick of the state machine (`operator()`): in stance, stream the
      next waypoint and test the trigger; then count static frames; then, in
      swing, end the swing once it has lasted `it` seconds. */
  function Tick(c: Controller, f: Frame): (r: Step)
    requires Streamable(c)
    ensures r.c.mcid == c.mcid && r.c.P == c.P && r.c.V == c.V && r.c.T == c.T && r.c.g == c.g
    // streaming: exactly one waypoint, the one at the cursor, in stance
    ensures c.mode == Stance && c.i < |c.T| ==> |r.out| >= 1 && r.out[0] == Waypoint(c, c.i)
    ensures !(c.mode == Stance && c.i < |c.T|) ==> forall e :: e in r.out ==> e.MotorRun?
    // the trigger is tested only in stance; a trigger restarts the swing clock
    ensures c.mode == Stance && Triggers(c, f) ==> r.c.timerStart == f.now
    ensures c.mode == Stance && !Triggers(c, f) ==> r.c.mode == Stance && r.c.timerStart == c.timerStart
    ensures c.mode == Swing ==> r.c.timerStart == c.timerStart
    // static frames are counted after the trigger test
    ensures Pvt.Abs(f.ownAcc) > c.g.st ==> r.c.sFrm == 0
    ensures Pvt.Abs(f.ownAcc) <= c.g.st ==>
              r.c.sFrm == (if c.mode == Stance && Triggers(c, f) then 0 else c.sFrm) + 1
    // a swing ends, with one motorRun and the cursor rewound, once it has lasted `it`
    ensures MotorRun(c.mcid) in r.out <==> EndsSwing(c, f)
    ensures EndsSwing(c, f) ==> r.c.mode == Stance && r.c.i == 0
    ensures EndsSwing(c, f) ==>
              r.out == (if c.mode == Stance && c.i < |c.T| then [Waypoint(c, c.i)] else []) + [MotorRun(c.mcid)]
    ensures !EndsSwing(c, f) ==>
              r.out == (if c.mode == Stance && c.i < |c.T| then [Waypoint(c, c.i)] else [])
    ensures !EndsSwing(c, f) ==>
              r.c.i == (if c.mode == Stance && c.i < |c.T| then c.i + 1 else c.i) &&
              r.c.mode == (if c.mode == Stance && Triggers(c, f) then Swing else c.mode)
    ensures |r.out| <= 2
  {
    var streams := c.mode == Stance && c.i < |c.T|;
    var out1 := if streams then [Waypoint(c, c.i)] else [];
    var c1 := if streams then c.(i := c.i + 1) else c;
    var c2 := if c.mode == Stance && Triggers(c, f) then c1.(timerStart := f.now, mode := Swing, sFrm := 0) else c1;
    var c3 := c2.(sFrm := if Pvt.Abs(f.ownAcc) <= c.g.st then c2.sFrm + 1 else 0);
    if c3.mode == Swing then
      var t := SwingTime(c3, f.now);
      if t >= c.g.it then
        Step(c3.(t := t, i := 0, mode := Stance), out1 + [MotorRun(c.mcid)])
      else
        Step(c3.(t := t), out1)
    else
      Step(c3, out1)
  }

  /** Whether a tick ends a swing: already swinging, or triggered in this
      very tick, with the swing clock at or past `it`. A triggered swing has
      lasted 0 s, so it ends at once when it <= 0. */
  predicate EndsSwing(c: Controller, f: Frame)
  {
    if c.mode == Swing then SwingTime(c, f.now) >= c.g.it
    else Triggers(c, f) && 0.0 >= c.g.it
  }

  /** `reset`: back to stance with cursor and static-frame counter at zero;
      trajectory, parameters and clock are kept. */
  function Reset(c: Controller): (r: Controller)
    ensures r.mode == Stance && r.sFrm == 0 && r.i == 0
    ensures r.(mode := c.mode, sFrm := c.sFrm, i := c.i) == c
  {
    c.(mode := Stance, sFrm := 0, i := 0)
  }

  /** Parameter slot k as a real (slot 7, the frame count, is an int). */
  function Knob(g: Gains, k: int): real
  {
    match k
    case 0 => g.kr
    case 1 => g.ks
    case 2 => g.kw
    case 3 => g.cd
    case 4 => g.it
    case 5 => g.st
    case 6 => g.mt
    case 7 => g.nf as real
    case 8 => g.tw
    case 9 => g.tp
    case _ => 0.0
  }

  /** Slot k holds the value v as `paramGet` stores it (slot 7 truncated). */
  predicate SlotHolds(g: Gains, k: int, v: real)
  {
    if k == 7 then g.nf == Trunc(v) else Knob(g, k) == v
  }

  /** The parameters hold the ten given knob values, slot by slot, with ft
      derived from them. */
  predicate HoldsKnobs(g: Gains, knobs: seq<real>)
  {
    |knobs| == 10 && g.ft == g.it + g.cd &&
    forall k :: 0 <= k < 10 ==> SlotHolds(g, k, knobs[k])
  }

  /** `paramGet(ch, par, val)`: for this controller's channel, store val in
      slot par (slot 7 truncated to an int), report an unknown slot without
      storing anything, and recompute ft = it + cd either way. Messages for
      the other channel change nothing. */
  function ParamGet(c: Controller, ch: int, par: int, val: real): (r: Controller)
    ensures r.(g := c.g) == c
    ensures ch + 1 != c.mcid ==> r == c
    ensures ch + 1 == c.mcid ==>
              r.g.ft == r.g.it + r.g.cd &&
              (0 <= par <= 9 && par != 7 ==> Knob(r.g, par) == val) &&
              (par == 7 ==> r.g.nf == Trunc(val)) &&
              (forall k :: 0 <= k <= 9 && k != par ==> Knob(r.g, k) == Knob(c.g, k))
  {
    if ch + 1 != c.mcid then c
    else
      var g := c.g;
      var g' := match par
        case 0 => g.(kr := val)
        case 1 => g.(ks := val)
        case 2 => g.(kw := val)
        case 3 => g.(cd := val)
        case 4 => g.(it := val)
        case 5 => g.(st := val)
        case 6 => g.(mt := val)
        case 7 => g.(nf := Trunc(val))
        case 8 => g.(tw := val)
        case 9 => g.(tp := val)
        case _ => g;
      c.(g := g'.(ft := g'.it + g'.cd))
  }

  /** `PVTGet(ch, p, v, t)`: this controller's channel replaces the whole
      trajectory; mode, cursor and counter are untouched. */
  function PvtGet(c: Controller, ch: int, p: seq<int>, v: seq<int>, t: seq<int>): (r: Controller)
    ensures r.(P := c.P, V := c.V, T := c.T) == c
    ensures ch + 1 == c.mcid ==> r.P == p && r.V == v && r.T == t
    ensures ch + 1 != c.mcid ==> r == c
  {
    if ch + 1 == c.mcid then c.(P := p, V := v, T := t) else c
  }

  // ---------------------------------------------------------------------
  // Runs of ticks

  /** Ticks over a sequence of frames, events concatenated in order. */
  function Run(c: Controller, fs: seq<Frame>): (r: Step)
    requires Streamable(c)
    ensures Streamable(r.c) && r.c.P == c.P && r.c.V == c.V && r.c.T == c.T && r.c.mcid == c.mcid
    decreases |fs|
  {
    if |fs| == 0 then Step(c, [])
    else
      var s := Tick(c, fs[0]);
      var rest := Run(s.c, fs[1..]);
      Step(rest.c, s.out + rest.out)
  }

  /** The waypoint events for indices a..b-1, in order. */
  function Waypoints(c: Controller, a: int, b: int): (r: seq<Event>)
    requires 0 <= a <= b <= |c.T| && Streamable(c)
    ensures |r| == b - a
    ensures forall k :: 0 <= k < b - a ==> r[k] == Waypoint(c, a + k)
  {
    seq(b - a, k requires 0 <= k < b - a => Waypoint(c, a + k))
  }

  /** Between two motorRun events the controller streams the trajectory
      in order: a run that starts no trajectory emits exactly the waypoints
      from its starting cursor up to its final cursor, each once, and the
      cursor never passes the end of the trajectory. A cursor already past
      the end (a shorter trajectory delivered mid-stream) streams nothing
      and stays where it is. */
  lemma {:induction false} StreamsInOrder(c: Controller, fs: seq<Frame>)
    requires Streamable(c)
    requires MotorRun(c.mcid) !in Run(c, fs).out
    ensures c.i <= |c.T| ==> c.i <= Run(c, fs).c.i <= |c.T|
    ensures c.i <= |c.T| ==> Run(c, fs).out == Waypoints(c, c.i, Run(c, fs).c.i)
    ensures c.i > |c.T| ==> Run(c, fs).out == [] && Run(c, fs).c.i == c.i
    decreases |fs|
  {
    if |fs| > 0 {
      var s := Tick(c, fs[0]);
      var rest := Run(s.c, fs[1..]);
      assert Run(c, fs).out == s.out + rest.out;
      assert MotorRun(c.mcid) !in s.out;
      assert MotorRun(c.mcid) !in rest.out;
      TickStreams(c, fs[0]);
      StreamsInOrder(s.c, fs[1..]);
      if c.i <= |c.T| {
        WaypointsJoin(c, s.c, c.i, s.c.i, rest.c.i);
      }
    }
  }

  /** One tick that starts no trajectory streams at most the waypoint at
      the cursor and advances the cursor past exactly what it streamed; a
      cursor past the end streams nothing. */
  lemma TickStreams(c: Controller, f: Frame)
    requires Streamable(c)
    requires MotorRun(c.mcid) !in Tick(c, f).out
    ensures c.i <= |c.T| ==> c.i <= Tick(c, f).c.i <= |c.T|
    ensures c.i <= |c.T| ==> Tick(c, f).out == Waypoints(c, c.i, Tick(c, f).c.i)
    ensures c.i > |c.T| ==> Tick(c, f).out == [] && Tick(c, f).c.i == c.i
  {
    var r := Tick(c, f);
    assert !EndsSwing(c, f);
    if c.mode == Stance && c.i < |c.T| {
      assert r.out == [Waypoint(c, c.i)];
    } else {
      assert r.out == [];
    }
  }

  /** Consecutive waypoint ranges of the same trajectory join up. */
  lemma WaypointsJoin(c: Controller, d: Controller, a: int, m: int, b: int)
    requires Streamable(c) && d.mcid == c.mcid && d.P == c.P && d.V == c.V && d.T == c.T
    requires 0 <= a <= m <= b <= |c.T|
    ensures Waypoints(c, a, m) + Waypoints(d, m, b) == Waypoints(c, a, b)
  {
    assert Waypoints(d, m, b) == Waypoints(c, m, b);
  }
}

=== FILE: orthosis.dfy ===
/** The orchestrator: the UDP command parser with its status machine, the
    readiness counters of sensors and motors, the routing of sensor and motor
    readings, and the main loop that runs control frames at the sample rate
    and decimates telemetry and motor reads (Beaglebone/Orthosis.h,
    Beaglebone/Orthosis.cpp). Sockets, timers and emitted signals become an
    action list; the elapsed-time clock is a `now` input in ms. */
module Orthosis {
  import Wrappers
  import Ahrs
  import Pvt
  import Control
  import Param

  /** Status byte: disabled, enabled (motors homed), running. */
  const Disabled: int := 0
  const Enabled: int := 1
  const Running: int := 3

  /** Size of the telemetry vector. */
  const OutSize: nat := 8
  /** Motor-read rate, plot rate for the desktop and the Android client (Hz). */
  const MotorRate: real := 25.0
  const PlotRate: real := 25.0
  const PlotRateAndroid: real := 25.0
  /** Port the telemetry goes to. */
  const PlotPort: int := 8889
  /** Size of a parameter datagram: three doubles. */
  const ParamDatagramSize: nat := 24

  /** The sender of a datagram: address and port. */
  datatype Peer = Peer(addr: int, port: int)

  /** What goes back to the command client. */
  datatype Reply = Ok | Err | StatusByte(code: int) | ParamList(values: seq<real>)

  /** Everything the orchestrator does outside its own state, in order. */
  datatype Action =
    | Send(to: Peer, reply: Reply)            // datagram to the command client
    | Telemetry(to: Peer, values: seq<real>)  // datagram to the plot port
    | TimeUpdate(t: real)
    | RazorSync | RazorStop | RazorDump
    | MotorHome | MotorRead(t: real) | MotorDump | MotorStop
    | SaveParams
    | Motor(e: Control.Event)                 // a controller's motorAdd / motorRun
    | OutOfRange                              // parameter datagram indexing past the store

  /** The orchestrator's state. q1, q2 are the latest sensor vectors (right,
      left), mPos the latest motor angles; cf counts control frames, pf and
      mf are the frames due for the next telemetry and the next motor read;
      timerOn and clockStart stand for the loop timer and the elapsed-time
      clock; peer is the last command client. */
  datatype Sys = Sys(sampRate: nat, status: int, readyIMUs: nat, readyMotors: nat,
                     cf: nat, pf: nat, mf: nat, pskip: nat, mskip: nat,
                     t: real, out: seq<real>, q1: seq<real>, q2: seq<real>, mPos: seq<real>,
                     timerOn: bool, clockStart: int, peer: Peer,
                     store: Param.Store, right: Control.Controller, left: Control.Controller)

  datatype Out = Out(s: Sys, acts: seq<Action>)

  /** What every operation relies on and keeps: a known status, ten knobs per
      channel, full sensor vectors, two motor angles, and the right and left
      controllers wired as motors 1 and 2 with streamable trajectories. */
  predicate Valid(s: Sys)
  {
    (s.status == Disabled || s.status == Enabled || s.status == Running) &&
    Param.Valid(s.store) &&
    |s.store.cPar[0]| == Param.ParamCount && |s.store.cPar[1]| == Param.ParamCount &&
    |s.q1| == Ahrs.GroupCount && |s.q2| == Ahrs.GroupCount && |s.mPos| == 2 && |s.out| == OutSize &&
    s.right.mcid == 1 && s.left.mcid == 2 &&
    Control.Streamable(s.right) && Control.Streamable(s.left)
  }

  /** The status machine's invariant: a status other than disabled means
      both motors have reported ready, and the loop timer runs only while
      the system is running. */
  predicate Inv(s: Sys)
  {
    Valid(s) &&
    (s.status != Disabled ==> s.readyMotors >= 2) &&
    (s.timerOn ==> s.status == Running)
  }

  // ---------------------------------------------------------------------
  // Parameter signals reach both controllers

  /** A parameter-store signal as a controller receives it. */
  function Deliver(c: Control.Controller, e: Param.Event): (r: Control.Controller)
    ensures r.mcid == c.mcid && r.mode == c.mode && r.i == c.i && r.sFrm == c.sFrm
    ensures e.ParamSend? ==> r == Control.ParamGet(c, e.ch, e.knob, e.val)
    ensures e.PvtSend? ==> r == Control.PvtGet(c, e.ch, e.P, e.V, e.T)
  {
    match e
    case ParamSend(ch, knob, val) => Control.ParamGet(c, ch, knob, val)
    case PvtSend(ch, p, v, t) => Control.PvtGet(c, ch, p, v, t)
  }

  /** Signals delivered in order; well-shaped trajectories keep the
      controller streamable. */
  function DeliverAll(c: Control.Controller, es: seq<Param.Event>): (r: Control.Controller)
    requires Control.Streamable(c) && Param.WellShaped(es)
    ensures Control.Streamable(r)
    ensures r.mcid == c.mcid && r.mode == c.mode && r.i == c.i && r.sFrm == c.sFrm
    decreases |es|
  {
    if |es| == 0 then c
    else
      assert es[0] in es;
      assert Param.WellShaped(es[1..]) by {
        forall e | e in es[1..] && e.PvtSend?
          ensures |e.P| == |e.T| && |e.V| == |e.T|
        {
          assert e in es;
        }
      }
      DeliverAll(Deliver(c, es[0]), es[1..])
  }

  /** What one `set` does to a controller: the knob reaches the controller
      of its channel, and the channel's trajectory is replaced exactly when
      the new curve was published. */
  lemma DeliverSet(c: Control.Controller, ch: int, knob: int, val: real, curve: seq<Param.Event>)
    requires Control.Streamable(c) && Param.WellShaped([Param.ParamSend(ch, knob, val)] + curve)
    requires curve == [] || (|curve| == 1 && curve[0].PvtSend? && curve[0].ch == ch)
    ensures var r := DeliverAll(c, [Param.ParamSend(ch, knob, val)] + curve);
            r.g == Control.ParamGet(c, ch, knob, val).g &&
            (ch + 1 == c.mcid && curve != [] ==> r.P == curve[0].P && r.V == curve[0].V && r.T == curve[0].T) &&
            (ch + 1 != c.mcid || curve == [] ==> r.P == c.P && r.V == c.V && r.T == c.T)
  {
    var es := [Param.ParamSend(ch, knob, val)] + curve;
    var c1 := Deliver(c, es[0]);
    assert es[1..] == curve;
    if curve != [] {
      assert curve[0] in es;
      assert Param.WellShaped(curve) by {
        forall e | e in curve && e.PvtSend? ensures |e.P| == |e.T| && |e.V| == |e.T| {
          assert e in es;
        }
      }
      assert curve[1..] == [];
      assert DeliverAll(c1, curve) == DeliverAll(Deliver(c1, curve[0]), []);
    }
  }

  /** Delivering two batches of signals is delivering them one after the
      other. */
  lemma {:induction false} DeliverAllAppend(c: Control.Controller, a: seq<Param.Event>, b: seq<Param.Event>)
    requires Control.Streamable(c) && Param.WellShaped(a + b)
    ensures Param.WellShaped(a) && Param.WellShaped(b)
    ensures DeliverAll(c, a + b) == DeliverAll(DeliverAll(c, a), b)
    decreases |a|
  {
    assert Param.WellShaped(a) by {
      forall e | e in a && e.PvtSend? ensures |e.P| == |e.T| && |e.V| == |e.T| {
        assert e in a + b;
      }
    }
    assert Param.WellShaped(b) by {
      forall e | e in b && e.PvtSend? ensures |e.P| == |e.T| && |e.V| == |e.T| {
        assert e in a + b;
      }
    }
    if |a| == 0 {
      assert a + b == b;
    } else {
      assert (a + b)[0] == a[0];
      assert (a + b)[1..] == a[1..] + b;
      assert a[0] in a;
      DeliverAllAppend(Deliver(c, a[0]), a[1..], b);
      assert DeliverAll(c, a + b) == DeliverAll(Deliver(c, a[0]), a[1..] + b);
      assert DeliverAll(c, a) == DeliverAll(Deliver(c, a[0]), a[1..]);
    }
  }

  /** Signals for the other channel leave a controller as it is. */
  lemma {:induction false} DeliverOtherChannel(c: Control.Controller, es: seq<Param.Event>)
    requires Control.Streamable(c) && Param.WellShaped(es)
    requires forall e :: e in es ==> e.ch + 1 != c.mcid
    ensures DeliverAll(c, es) == c
    decreases |es|
  {
    if |es| > 0 {
      assert es[0] in es;
      assert Deliver(c, es[0]) == c;
      assert forall e :: e in es[1..] ==> e in es;
      DeliverOtherChannel(c, es[1..]);
    }
  }

  /** The first j knob signals of a channel set the first j slots of its own
      controller and leave its trajectory alone. */
  lemma {:induction false} DeliverKnobsPrefix(c: Control.Controller, ch: int, knobs: seq<real>, j: nat)
    requires Control.Streamable(c) && ch + 1 == c.mcid && j <= |knobs| == Param.ParamCount
    ensures Param.WellShaped(Param.ParamSends(ch, knobs[..j]))
    ensures var r := DeliverAll(c, Param.ParamSends(ch, knobs[..j]));
            r.P == c.P && r.V == c.V && r.T == c.T &&
            (j > 0 ==> r.g.ft == r.g.it + r.g.cd) &&
            forall k :: 0 <= k < j ==> Control.SlotHolds(r.g, k, knobs[k])
    decreases j
  {
    var es := Param.ParamSends(ch, knobs[..j]);
    assert Param.WellShaped(es);
    if j > 0 {
      var front := Param.ParamSends(ch, knobs[..j - 1]);
      var e := Param.ParamSend(ch, j - 1, knobs[j - 1]);
      assert es == front + [e];
      DeliverKnobsPrefix(c, ch, knobs, j - 1);
      DeliverAllAppend(c, front, [e]);
      var c1 := DeliverAll(c, front);
      assert DeliverAll(c1, [e]) == DeliverAll(Deliver(c1, e), []);
      var r := Control.ParamGet(c1, ch, j - 1, knobs[j - 1]);
      assert DeliverAll(c, es) == r;
      forall k | 0 <= k < j
        ensures Control.SlotHolds(r.g, k, knobs[k])
      {
        if k < j - 1 {
          assert Control.SlotHolds(c1.g, k, knobs[k]);
          assert Control.Knob(r.g, k) == Control.Knob(c1.g, k);
          if k == 7 {
            assert r.g.nf as real == c1.g.nf as real;
          }
        }
      }
    }
  }

  /** A controller that receives the signals of its own channel's `setup`,
      and then those of the other channel, ends with that channel's knobs
      and published trajectory. */
  lemma SetupReachesController(c: Control.Controller, ch: int, own: seq<Param.Event>, other: seq<Param.Event>,
                               knobs: seq<real>, p: seq<int>, v: seq<int>, t: seq<int>)
    requires Control.Streamable(c) && ch + 1 == c.mcid && |knobs| == Param.ParamCount
    requires own == [Param.PvtSend(ch, p, v, t)] + Param.ParamSends(ch, knobs)
    requires Param.WellShaped(own + other) && forall e :: e in other ==> e.ch + 1 != c.mcid
    ensures var r := DeliverAll(c, own + other);
            r.P == p && r.V == v && r.T == t && Control.HoldsKnobs(r.g, knobs)
  {
    var pvt := [Param.PvtSend(ch, p, v, t)];
    var sends := Param.ParamSends(ch, knobs);
    assert own + other == pvt + (sends + other);
    DeliverAllAppend(c, pvt, sends + other);
    var c1 := DeliverAll(c, pvt);
    assert pvt[0] in pvt;
    assert DeliverAll(c, pvt) == DeliverAll(Deliver(c, pvt[0]), []);
    assert c1.P == p && c1.V == v && c1.T == t;
    DeliverAllAppend(c1, sends, other);
    assert knobs[..|knobs|] == knobs;
    DeliverKnobsPrefix(c1, ch, knobs, |knobs|);
    var c2 := DeliverAll(c1, sends);
    DeliverOtherChannel(c2, other);
  }

  /** Every signal a channel's `setup` sends names that channel. */
  lemma ChannelSignals(ch: int, knobs: seq<real>, p: seq<int>, v: seq<int>, t: seq<int>)
    ensures forall e :: e in [Param.PvtSend(ch, p, v, t)] + Param.ParamSends(ch, knobs) ==> e.ch == ch
  {
    var es := [Param.PvtSend(ch, p, v, t)] + Param.ParamSends(ch, knobs);
    forall e | e in es ensures e.ch == ch {
      var j :| 0 <= j < |es| && es[j] == e;
      if j > 0 {
        assert e == Param.ParamSends(ch, knobs)[j - 1];
      }
    }
  }

  /** A controller wired to a store's `setup` signals (right channel, then
      left) ends with its own channel's knobs and trajectory. */
  lemma SetupLoads(c: Control.Controller, ch: int, st: Param.Store, es: seq<Param.Event>)
    requires Control.Streamable(c) && (ch == 0 || ch == 1) && c.mcid == ch + 1
    requires |st.cPar| == 2 && |st.curves| == 2
    requires |st.cPar[0]| == Param.ParamCount && |st.cPar[1]| == Param.ParamCount
    requires es == [Param.PvtSend(0, st.curves[0].P, st.curves[0].V, st.curves[0].T)] + Param.ParamSends(0, st.cPar[0]) +
                   [Param.PvtSend(1, st.curves[1].P, st.curves[1].V, st.curves[1].T)] + Param.ParamSends(1, st.cPar[1])
    requires Param.WellShaped(es)
    ensures var r := DeliverAll(c, es);
            r.P == st.curves[ch].P && r.V == st.curves[ch].V && r.T == st.curves[ch].T &&
            Control.HoldsKnobs(r.g, st.cPar[ch])
  {
    var c0 := st.curves[0];
    var c1 := st.curves[1];
    var right := [Param.PvtSend(0, c0.P, c0.V, c0.T)] + Param.ParamSends(0, st.cPar[0]);
    var left := [Param.PvtSend(1, c1.P, c1.V, c1.T)] + Param.ParamSends(1, st.cPar[1]);
    assert es == right + left;
    ChannelSignals(0, st.cPar[0], c0.P, c0.V, c0.T);
    ChannelSignals(1, st.cPar[1], c1.P, c1.V, c1.T);
    DeliverAllAppend(c, right, left);
    if ch == 0 {
      SetupReachesController(c, 0, right, left, st.cPar[0], c0.P, c0.V, c0.T);
    } else {
      DeliverOtherChannel(c, right);
      assert left + [] == left;
      SetupReachesController(c, 1, left, [], st.cPar[1], c1.P, c1.V, c1.T);
    }
  }

  // ---------------------------------------------------------------------
  // Construction

  /** A vector of n zeros. */
  function Zeros(n: nat): (z: seq<real>)
    ensures |z| == n && forall i :: 0 <= i < n ==> z[i] == 0.0
  {
    seq(n, _ => 0.0)
  }

  /** `int(x + 0.5)` for x >= 0: a frame-skip count rounded to nearest. */
  function RoundSkip(x: real): (r: nat)
    requires x >= 0.0
    ensures r as real <= x + 0.5 < r as real + 1.0
  {
    (x + 0.5).Floor
  }

  /** The constructor: disabled, the motor-read skip sr/25 rounded, zeroed
      vectors, and the parameter store set up with its signals delivered to
      both controllers. pskip is a parameter because the source sets it only
      when a client connects. */
  function Create(sampRate: nat, pskip: nat, loaded: Wrappers.Option<seq<(real, real)>>,
                  shape: Pvt.Shape, g: Control.Gains): (s: Sys)
    requires loaded.Some? ==> |loaded.value| == Param.ParamCount
    ensures Inv(s) && s.status == Disabled && !s.timerOn
    ensures s.mskip as real <= sampRate as real / MotorRate + 0.5 < s.mskip as real + 1.0
    ensures s.store.cPar == [Param.Initial(loaded, 0), Param.Initial(loaded, 1)]
  {
    var setup := InitialStore(loaded, shape);
    Sys(sampRate, Disabled, 0, 0, 0, 0, 0, pskip, RoundSkip(sampRate as real / MotorRate),
        0.0, Zeros(OutSize), Zeros(Ahrs.GroupCount), Zeros(Ahrs.GroupCount), Zeros(2),
        false, 0, Peer(0, 0), setup.0,
        DeliverAll(Control.New(1, g), setup.1), DeliverAll(Control.New(2, g), setup.1))
  }

  /** The constructor wires the store's signals to both controllers before
      its `setup`, so each controller starts with its own channel's initial
      knobs and the trajectory published for that channel, in stance at
      the start of it. */
  lemma CreateLoadsControllers(sampRate: nat, pskip: nat, loaded: Wrappers.Option<seq<(real, real)>>,
                               shape: Pvt.Shape, g: Control.Gains)
    requires loaded.Some? ==> |loaded.value| == Param.ParamCount
    ensures var s := Create(sampRate, pskip, loaded, shape, g);
            Control.HoldsKnobs(s.right.g, Param.Initial(loaded, 0)) &&
            Control.HoldsKnobs(s.left.g, Param.Initial(loaded, 1)) &&
            s.right.P == s.store.curves[0].P && s.right.V == s.store.curves[0].V && s.right.T == s.store.curves[0].T &&
            s.left.P == s.store.curves[1].P && s.left.V == s.store.curves[1].V && s.left.T == s.store.curves[1].T &&
            s.right.mode == Control.Stance && s.right.i == 0 && s.right.sFrm == 0 &&
            s.left.mode == Control.Stance && s.left.i == 0 && s.left.sFrm == 0
  {
    var setup := InitialStore(loaded, shape);
    var s := Create(sampRate, pskip, loaded, shape, g);
    assert s.store == setup.0;
    assert s.right == DeliverAll(Control.New(1, g), setup.1);
    assert s.left == DeliverAll(Control.New(2, g), setup.1);
    SetupLoads(Control.New(1, g), 0, setup.0, setup.1);
    SetupLoads(Control.New(2, g), 1, setup.0, setup.1);
  }

  /** The constructor's `setup` of a fresh store: the initial knobs of each
      channel and the signals that announce them. */
  function InitialStore(loaded: Wrappers.Option<seq<(real, real)>>, shape: Pvt.Shape): (r: (Param.Store, seq<Param.Event>))
    requires loaded.Some? ==> |loaded.value| == Param.ParamCount
    ensures Param.Valid(r.0) && Param.WellShaped(r.1)
    ensures r.0.cPar == [Param.Initial(loaded, 0), Param.Initial(loaded, 1)]
    ensures r.1 == [Param.PvtSend(0, r.0.curves[0].P, r.0.curves[0].V, r.0.curves[0].T)] + Param.ParamSends(0, r.0.cPar[0]) +
                   [Param.PvtSend(1, r.0.curves[1].P, r.0.curves[1].V, r.0.curves[1].T)] + Param.ParamSends(1, r.0.cPar[1])
  {
    SetupFresh(loaded, shape);
    Param.Setup(Param.Create(), loaded, shape)
  }

  /** Setting up a fresh store gives each channel exactly its initial knobs. */
  lemma SetupFresh(loaded: Wrappers.Option<seq<(real, real)>>, shape: Pvt.Shape)
    requires loaded.Some? ==> |loaded.value| == Param.ParamCount
    ensures Param.Setup(Param.Create(), loaded, shape).0.cPar == [Param.Initial(loaded, 0), Param.Initial(loaded, 1)]
  {
    var setup := Param.Setup(Param.Create(), loaded, shape);
    assert Param.Create().cPar[0] == [] && Param.Create().cPar[1] == [];
    assert setup.0.cPar[0] == [] + Param.Initial(loaded, 0);
    assert setup.0.cPar[1] == [] + Param.Initial(loaded, 1);
    assert [] + Param.Initial(loaded, 0) == Param.Initial(loaded, 0);
    assert [] + Param.Initial(loaded, 1) == Param.Initial(loaded, 1);
  }

  // ---------------------------------------------------------------------
  // Commands

  /** The part of a datagram a text comparison sees: everything before the
      first NUL byte (the datagram is read as a C string). */
  function UntilNul(m: seq<bv8>): (r: seq<bv8>)
    ensures |r| <= |m| && r == m[..|r|]
    ensures forall i :: 0 <= i < |r| ==> r[i] != 0
    ensures |r| < |m| ==> m[|r|] == 0
  {
    if |m| == 0 || m[0] == 0 then [] else [m[0]] + UntilNul(m[1..])
  }

  /** A text without NUL bytes, followed by nothing or by a NUL, compares as
      that text whatever follows the NUL. */
  lemma {:induction false} UntilNulStops(text: seq<bv8>, tail: seq<bv8>)
    requires forall i :: 0 <= i < |text| ==> text[i] != 0
    requires tail == [] || tail[0] == 0
    ensures UntilNul(text + tail) == text
    decreases |text|
  {
    if |text| == 0 {
      assert text + tail == tail;
    } else {
      assert (text + tail)[1..] == text[1..] + tail;
      UntilNulStops(text[1..], tail);
      assert [text[0]] + text[1..] == text;
    }
  }

  datatype Command = Connect | Android | On | Off | Start | Stop | SetParam | Unknown

  /** The command words the client sends, as ASCII bytes. */
  function Word(c: Command): (w: seq<bv8>)
    requires c != SetParam && c != Unknown
    ensures |w| > 0 && forall i :: 0 <= i < |w| ==> w[i] != 0
  {
    match c
    case Connect => [0x43, 0x6F, 0x6E, 0x6E, 0x65, 0x63, 0x74]  // "Connect"
    case Android => [0x41, 0x6E, 0x64, 0x72, 0x6F, 0x69, 0x64]  // "Android"
    case On => [0x4F, 0x6E]                                     // "On"
    case Off => [0x4F, 0x66, 0x66]                              // "Off"
    case Start => [0x53, 0x74, 0x61, 0x72, 0x74]                // "Start"
    case Stop => [0x53, 0x74, 0x6F, 0x70]                       // "Stop"
  }

  /** Which branch of the parser a datagram takes: the command words are
      compared in order against the datagram's text, and only a datagram
      that is none of them and is 24 bytes long is a parameter setting. */
  function Parse(m: seq<bv8>): (c: Command)
    ensures c != SetParam && c != Unknown ==> UntilNul(m) == Word(c)
    ensures c == SetParam <==> |m| == ParamDatagramSize && !IsWord(UntilNul(m))
  {
    var text := UntilNul(m);
    if text == Word(Connect) then Connect
    else if text == Word(Android) then Android
    else if text == Word(On) then On
    else if text == Word(Off) then Off
    else if text == Word(Start) then Start
    else if text == Word(Stop) then Stop
    else if |m| == ParamDatagramSize then SetParam
    else Unknown
  }

  predicate IsWord(text: seq<bv8>)
  {
    text == Word(Connect) || text == Word(Android) || text == Word(On) ||
    text == Word(Off) || text == Word(Start) || text == Word(Stop)
  }

  /** The command words are told apart: a datagram holding a command word,
      optionally followed by a NUL and anything at all, is that command. */
  lemma ParseWord(c: Command, tail: seq<bv8>)
    requires c != SetParam && c != Unknown
    requires tail == [] || tail[0] == 0
    ensures Parse(Word(c) + tail) == c
  {
    UntilNulStops(Word(c), tail);
  }

  /** A 24-byte datagram whose first byte is zero (the encoding of channel
      0.0 or 1.0 as a little-endian double) is always a parameter setting. */
  lemma ParamDatagramIsNoWord(m: seq<bv8>)
    requires |m| == ParamDatagramSize && m[0] == 0
    ensures Parse(m) == SetParam
  {
    assert UntilNul(m) == [];
  }

  /** The knob values reported to a client: right channel 0..9, then left. */
  function ExportParams(st: Param.Store): (v: seq<real>)
    requires |st.cPar| == Param.ChannelCount
    requires |st.cPar[0]| == Param.ParamCount && |st.cPar[1]| == Param.ParamCount
    ensures |v| == 2 * Param.ParamCount
    ensures forall i :: 0 <= i < Param.ParamCount ==>
              v[i] == Param.Get(st, 0, i) && v[Param.ParamCount + i] == Param.Get(st, 1, i)
  {
    st.cPar[0] + st.cPar[1]
  }

  /** `stop`: if the loop timer runs, stop it, stop the sensors and dump
      sensor and motor logs; otherwise nothing. */
  function StopLoop(s: Sys): (r: Out)
    ensures !r.s.timerOn && r.s == s.(timerOn := false)
    ensures r.acts == if s.timerOn then [RazorStop, RazorDump, MotorDump] else []
  {
    if s.timerOn then Out(s.(timerOn := false), [RazorStop, RazorDump, MotorDump]) else Out(s, [])
  }

  /** `Connect` / `Android`: acknowledge, report the status byte and all
      twenty knobs, and set the telemetry skip from the client's plot rate. */
  function Hello(s: Sys, from: Peer, android: bool): (r: Out)
    requires Valid(s)
    ensures Valid(r.s)
    ensures r.s == s.(peer := from, pskip := r.s.pskip)
    ensures r.acts == [Send(from, Ok), Send(from, StatusByte(s.status)), Send(from, ParamList(ExportParams(s.store)))]
    ensures var rate := if android then PlotRateAndroid else PlotRate;
            r.s.pskip as real <= s.sampRate as real / rate + 0.5 < r.s.pskip as real + 1.0
  {
    var rate := if android then PlotRateAndroid else PlotRate;
    Out(s.(peer := from, pskip := RoundSkip(s.sampRate as real / rate)),
        [Send(from, Ok), Send(from, StatusByte(s.status)), Send(from, ParamList(ExportParams(s.store)))])
  }

  /** `On`: only while disabled, re-count motor readiness and home the
      motors; the status stays disabled until both motors report ready. */
  function TurnOn(s: Sys, from: Peer): (r: Out)
    ensures r.s.status == s.status
    ensures s.status == Disabled ==> r.s == s.(peer := from, readyMotors := 0) && r.acts == [MotorHome, Send(from, Ok)]
    ensures s.status != Disabled ==> r.s == s.(peer := from) && r.acts == []
  {
    if s.status == Disabled then Out(s.(peer := from, readyMotors := 0), [MotorHome, Send(from, Ok)])
    else Out(s.(peer := from), [])
  }

  /** `Off`: from enabled or running, disable, save the knobs, stop the
      loop, stop the motors and reset both controllers. */
  function TurnOff(s: Sys, from: Peer): (r: Out)
    requires Valid(s)
    ensures Valid(r.s)
    ensures s.status <= Disabled ==> r.s == s.(peer := from) && r.acts == []
    ensures s.status > Disabled ==>
              r.s.status == Disabled && !r.s.timerOn &&
              r.s.right == Control.Reset(s.right) && r.s.left == Control.Reset(s.left) &&
              r.s == s.(peer := from, status := Disabled, timerOn := false,
                         right := r.s.right, left := r.s.left) &&
              r.acts == [SaveParams] + StopLoop(s).acts + [MotorStop, Send(from, Ok)]
  {
    if s.status > Disabled then
      var stopped := StopLoop(s.(status := Disabled, peer := from));
      Out(stopped.s.(right := Control.Reset(s.right), left := Control.Reset(s.left)),
          [SaveParams] + stopped.acts + [MotorStop, Send(from, Ok)])
    else Out(s.(peer := from), [])
  }

  /** `Start`: from enabled, run: clear the telemetry vector and the frame
      counters, re-count sensor readiness and synchronise the sensors. The
      loop timer starts when both sensors report ready. */
  function StartLoop(s: Sys, from: Peer): (r: Out)
    requires Valid(s)
    ensures Valid(r.s)
    ensures s.status != Enabled ==> r.s == s.(peer := from) && r.acts == []
    ensures s.status == Enabled ==>
              r.s == s.(peer := from, status := Running, out := Zeros(OutSize),
                         cf := 0, pf := 0, mf := 0, readyIMUs := 0) &&
              r.acts == [RazorSync, TimeUpdate(0.0), Send(from, Ok)]
  {
    if s.status == Enabled then
      Out(s.(peer := from, status := Running, out := Zeros(OutSize), cf := 0, pf := 0, mf := 0, readyIMUs := 0),
          [RazorSync, TimeUpdate(0.0), Send(from, Ok)])
    else Out(s.(peer := from), [])
  }

  /** `Stop`: from running, back to enabled with the loop stopped. */
  function StopRun(s: Sys, from: Peer): (r: Out)
    requires Valid(s)
    ensures Valid(r.s)
    ensures s.status != Running ==> r.s == s.(peer := from) && r.acts == []
    ensures s.status == Running ==>
              r.s == s.(peer := from, status := Enabled, timerOn := false) &&
              r.acts == StopLoop(s).acts + [Send(from, Ok)]
  {
    if s.status == Running then
      var stopped := StopLoop(s.(peer := from, status := Enabled));
      Out(stopped.s, stopped.acts + [Send(from, Ok)])
    else Out(s.(peer := from), [])
  }

  /** The three doubles of a parameter datagram, decoded by `decode`
      (8 bytes to a double). */
  function Field(m: seq<bv8>, k: nat, decode: seq<bv8> -> real): real
    requires |m| == ParamDatagramSize && k < 3
  {
    decode(m[8 * k .. 8 * k + 8])
  }

  /** A parameter datagram: channel and knob are the first two doubles cast
      to int, the value the third. An index inside the store goes through
      `set`, its signals reach both controllers, and the client hears Ok or,
      when the regenerated curve is infeasible, Err. */
  function SetKnob(s: Sys, from: Peer, m: seq<bv8>, decode: seq<bv8> -> real, shape: Pvt.Shape): (r: Out)
    requires Valid(s) && |m| == ParamDatagramSize
    ensures Valid(r.s)
    ensures r.s.status == s.status && r.s.timerOn == s.timerOn && r.s.readyMotors == s.readyMotors
    ensures var ch := Control.Trunc(Field(m, 0, decode));
            var knob := Control.Trunc(Field(m, 1, decode));
            var val := Field(m, 2, decode);
            if 0 <= ch < Param.ChannelCount && 0 <= knob < Param.ParamCount then
              var res := Param.Set(s.store, ch, knob, val, shape);
              r.s == s.(peer := from, store := res.st,
                        right := DeliverAll(s.right, res.out), left := DeliverAll(s.left, res.out)) &&
              r.acts == [Send(from, if res.ok then Ok else Err)]
            else
              r.s == s.(peer := from) && r.acts == [OutOfRange]
  {
    var ch := Control.Trunc(Field(m, 0, decode));
    var knob := Control.Trunc(Field(m, 1, decode));
    var val := Field(m, 2, decode);
    if 0 <= ch < Param.ChannelCount && 0 <= knob < Param.ParamCount then
      var res := Param.Set(s.store, ch, knob, val, shape);
      assert |res.st.cPar[1 - ch]| == Param.ParamCount;
      Out(s.(peer := from, store := res.st,
             right := DeliverAll(s.right, res.out), left := DeliverAll(s.left, res.out)),
          [Send(from, if res.ok then Ok else Err)])
    else
      Out(s.(peer := from), [OutOfRange])
  }

  /** One datagram through `readPendingDatagrams`: the sender becomes the
      command client, and the datagram's branch runs. */
  function Dispatch(s: Sys, from: Peer, m: seq<bv8>, decode: seq<bv8> -> real, shape: Pvt.Shape): (r: Out)
    requires Valid(s)
    ensures Valid(r.s) && r.s.peer == from
    ensures Parse(m) == Unknown ==> r.s == s.(peer := from) && r.acts == []
  {
    match Parse(m)
    case Connect => Hello(s, from, false)
    case Android => Hello(s, from, true)
    case On => TurnOn(s, from)
    case Off => TurnOff(s, from)
    case Start => StartLoop(s, from)
    case Stop => StopRun(s, from)
    case SetParam => SetKnob(s, from, m, decode, shape)
    case Unknown => Out(s.(peer := from), [])
  }

  /** One datagram under the status-machine invariant. */
  function DispatchStep(s: Sys, from: Peer, m: seq<bv8>, decode: seq<bv8> -> real, shape: Pvt.Shape): (r: Out)
    requires Inv(s)
    ensures Inv(r.s) && r.s.peer == from
    ensures r == Dispatch(s, from, m, decode, shape)
  {
    DispatchKeepsInv(s, from, m, decode, shape);
    Dispatch(s, from, m, decode, shape)
  }

  /** Every pending datagram in arrival order. */
  function DispatchAll(s: Sys, ds: seq<(Peer, seq<bv8>)>, decode: seq<bv8> -> real, shape: Pvt.Shape): (r: Out)
    requires Inv(s)
    ensures Inv(r.s)
    ensures ds != [] ==> r.s.peer == ds[|ds| - 1].0
    decreases |ds|
  {
    if |ds| == 0 then Out(s, [])
    else
      var first := DispatchStep(s, ds[0].0, ds[0].1, decode, shape);
      var rest := DispatchAll(first.s, ds[1..], decode, shape);
      Out(rest.s, first.acts + rest.acts)
  }

  /** The status machine: a command moves the status only along
      running/enabled -> disabled (`Off`), enabled -> running (`Start`) and
      running -> enabled (`Stop`), and every move is acknowledged with Ok
      to the sender. In particular no command leaves the disabled state. */
  lemma StatusTransitions(s: Sys, from: Peer, m: seq<bv8>, decode: seq<bv8> -> real, shape: Pvt.Shape)
    requires Valid(s)
    ensures var r := Dispatch(s, from, m, decode, shape);
            (r.s.status == s.status) ||
            (Parse(m) == Off && s.status != Disabled && r.s.status == Disabled && Send(from, Ok) in r.acts) ||
            (Parse(m) == Start && s.status == Enabled && r.s.status == Running && Send(from, Ok) in r.acts) ||
            (Parse(m) == Stop && s.status == Running && r.s.status == Enabled && Send(from, Ok) in r.acts)
    ensures s.status == Disabled ==> Dispatch(s, from, m, decode, shape).s.status == Disabled
  {
  }

  /** Commands keep the status-machine invariant. */
  lemma DispatchKeepsInv(s: Sys, from: Peer, m: seq<bv8>, decode: seq<bv8> -> real, shape: Pvt.Shape)
    requires Inv(s)
    ensures Inv(Dispatch(s, from, m, decode, shape).s)
  {
  }

  /** Parameters are remembered and reported: after a parameter datagram
      with an index inside the store, the next `Connect` reports the new
      value in that knob's place, whether the client heard Ok or Err. */
  lemma ConnectReportsLastSet(s: Sys, from: Peer, m: seq<bv8>, decode: seq<bv8> -> real, shape: Pvt.Shape,
                              from2: Peer, m2: seq<bv8>)
    requires Valid(s) && Parse(m) == SetParam
    requires 0 <= Control.Trunc(Field(m, 0, decode)) < Param.ChannelCount
    requires 0 <= Control.Trunc(Field(m, 1, decode)) < Param.ParamCount
    requires Parse(m2) == Connect
    ensures var ch := Control.Trunc(Field(m, 0, decode));
            var knob := Control.Trunc(Field(m, 1, decode));
            var r := Dispatch(Dispatch(s, from, m, decode, shape).s, from2, m2, decode, shape);
            |r.acts| == 3 && r.acts[2].Send? && r.acts[2].reply.ParamList? &&
            |r.acts[2].reply.values| == 2 * Param.ParamCount &&
            r.acts[2].reply.values[ch * Param.ParamCount + knob] == Field(m, 2, decode)
  {
    var ch := Control.Trunc(Field(m, 0, decode));
    var knob := Control.Trunc(Field(m, 1, decode));
    var val := Field(m, 2, decode);
    DispatchIs(s, from, m, decode, shape);
    var s1 := SetKnob(s, from, m, decode, shape).s;
    DispatchIs(s1, from2, m2, decode, shape);
    ExportAfterSet(s.store, ch, knob, Field(m, 2, decode), shape);
  }

  /** The exported list after a `set` carries the new value in that
      channel's block at that knob. */
  lemma ExportAfterSet(st: Param.Store, ch: int, knob: int, val: real, shape: Pvt.Shape)
    requires Param.Valid(st) && |st.cPar[0]| == Param.ParamCount && |st.cPar[1]| == Param.ParamCount
    requires 0 <= ch < Param.ChannelCount && 0 <= knob < Param.ParamCount
    ensures var st' := Param.Set(st, ch, knob, val, shape).st;
            |st'.cPar[0]| == Param.ParamCount && |st'.cPar[1]| == Param.ParamCount &&
            ExportParams(st')[ch * Param.ParamCount + knob] == val
  {
    var st' := Param.Set(st, ch, knob, val, shape).st;
    assert |st'.cPar[1 - ch]| == Param.ParamCount;
    Param.GetAfterSet(st, ch, knob, val, shape, ch, knob);
    var v := ExportParams(st');
    if ch == 0 {
      assert v[knob] == Param.Get(st', 0, knob);
    } else {
      assert v[Param.ParamCount + knob] == Param.Get(st', 1, knob);
    }
  }

  /** The branch `readPendingDatagrams` takes for a connect or a parameter
      datagram. */
  lemma DispatchIs(s: Sys, from: Peer, m: seq<bv8>, decode: seq<bv8> -> real, shape: Pvt.Shape)
    requires Valid(s)
    ensures Parse(m) == Connect ==> Dispatch(s, from, m, decode, shape) == Hello(s, from, false)
    ensures Parse(m) == SetParam ==> Dispatch(s, from, m, decode, shape) == SetKnob(s, from, m, decode, shape)
  {
  }

  /** A rejected setting (Err) still reaches the controller's knobs, but
      leaves both controllers' trajectories as they were: only a feasible
      curve is ever streamed to a motor. */
  lemma RejectedSetKeepsTrajectories(s: Sys, from: Peer, m: seq<bv8>, decode: seq<bv8> -> real, shape: Pvt.Shape)
    requires Valid(s) && Parse(m) == SetParam
    requires Send(from, Err) in Dispatch(s, from, m, decode, shape).acts
    ensures var r := Dispatch(s, from, m, decode, shape).s;
            r.right.P == s.right.P && r.right.V == s.right.V && r.right.T == s.right.T &&
            r.left.P == s.left.P && r.left.V == s.left.V && r.left.T == s.left.T
    ensures var ch := Control.Trunc(Field(m, 0, decode));
            var knob := Control.Trunc(Field(m, 1, decode));
            var val := Field(m, 2, decode);
            var r := Dispatch(s, from, m, decode, shape).s;
            r.right.g == Control.ParamGet(s.right, ch, knob, val).g &&
            r.left.g == Control.ParamGet(s.left, ch, knob, val).g
  {
    DispatchIs(s, from, m, decode, shape);
    var ch := Control.Trunc(Field(m, 0, decode));
    var knob := Control.Trunc(Field(m, 1, decode));
    var val := Field(m, 2, decode);
    var res := Param.Set(s.store, ch, knob, val, shape);
    assert res.out == [Param.ParamSend(ch, knob, val)] + [];
    DeliverSet(s.right, ch, knob, val, []);
    DeliverSet(s.left, ch, knob, val, []);
  }

  /** An accepted trajectory knob (Ok) reaches its channel's controller
      with the regenerated, feasible curve; the other controller keeps its
      trajectory. */
  lemma AcceptedCurveReachesController(s: Sys, from: Peer, m: seq<bv8>, decode: seq<bv8> -> real, shape: Pvt.Shape)
    requires Valid(s) && Parse(m) == SetParam
    requires Send(from, Ok) in Dispatch(s, from, m, decode, shape).acts
    requires Control.Trunc(Field(m, 1, decode)) < 4
    ensures var ch := Control.Trunc(Field(m, 0, decode));
            var r := Dispatch(s, from, m, decode, shape).s;
            var c := r.store.curves[ch];
            Pvt.Feasible(c, Param.MaxVel, Param.MaxAcc) &&
            (ch == 0 ==> r.right.P == c.P && r.right.V == c.V && r.right.T == c.T &&
                         r.left.P == s.left.P && r.left.V == s.left.V && r.left.T == s.left.T) &&
            (ch == 1 ==> r.left.P == c.P && r.left.V == c.V && r.left.T == c.T &&
                         r.right.P == s.right.P && r.right.V == s.right.V && r.right.T == s.right.T)
  {
    DispatchIs(s, from, m, decode, shape);
    var ch := Control.Trunc(Field(m, 0, decode));
    var knob := Control.Trunc(Field(m, 1, decode));
    var val := Field(m, 2, decode);
    var res := Param.Set(s.store, ch, knob, val, shape);
    var c := res.st.curves[ch];
    var curve := [Param.PvtSend(ch, c.P, c.V, c.T)];
    assert res.out == [Param.ParamSend(ch, knob, val)] + curve;
    DeliverSet(s.right, ch, knob, val, curve);
    DeliverSet(s.left, ch, knob, val, curve);
  }

  // ---------------------------------------------------------------------
  // Readiness and readings

  /** `motorReady`: one more motor homed; the second one enables the system. */
  function MotorReady(s: Sys): (r: Sys)
    ensures r.readyMotors == s.readyMotors + 1
    ensures r.status == (if s.readyMotors + 1 == 2 then Enabled else s.status)
    ensures r == s.(readyMotors := r.readyMotors, status := r.status)
  {
    var s' := s.(readyMotors := s.readyMotors + 1);
    if s'.readyMotors == 2 then s'.(status := Enabled) else s'
  }

  /** The disabled -> enabled move: it happens only in `motorReady`, and
      only on the second ready report after `On`; under the invariant a
      ready report never demotes a running system. */
  lemma EnabledOnlyByMotors(s: Sys, from: Peer, m: seq<bv8>, decode: seq<bv8> -> real, shape: Pvt.Shape)
    requires Inv(s)
    ensures Inv(MotorReady(s))
    ensures MotorReady(s).status != s.status ==> s.status == Disabled && MotorReady(s).status == Enabled
    ensures s.status == Disabled && Parse(m) == On ==>
              var on := Dispatch(s, from, m, decode, shape).s;
              on.status == Disabled && MotorReady(on).status == Disabled &&
              MotorReady(MotorReady(on)).status == Enabled
  {
  }

  /** `razorReady` as written: the second sensor to report ready starts the
      loop timer and the elapsed-time clock, whatever the status. */
  function RazorReadyAsWritten(s: Sys, now: int): (r: Sys)
    ensures r.readyIMUs == s.readyIMUs + 1
    ensures r.timerOn == (s.timerOn || s.readyIMUs + 1 == 2)
    ensures r.clockStart == (if s.readyIMUs + 1 == 2 then now else s.clockStart)
    ensures r == s.(readyIMUs := r.readyIMUs, timerOn := r.timerOn, clockStart := r.clockStart)
  {
    var s' := s.(readyIMUs := s.readyIMUs + 1);
    if s'.readyIMUs == 2 then s'.(timerOn := true, clockStart := now) else s'
  }

  /** A `Start` followed by an `Off` before both sensors are synchronised
      leaves the sensors' ready reports pending; when they arrive the
      as-written `razorReady` starts the loop with the system disabled and
      the motors stopped. `Off` alone no longer stops it (it needs a status
      above disabled): the loop runs until the motors are enabled again by
      `On` and their two ready reports, and then `Off`, or `Start`
      followed by `Stop`, is sent. */
  lemma AsWrittenLoopRunsWhileDisabled(s: Sys, from: Peer, start: seq<bv8>, off: seq<bv8>,
                                        decode: seq<bv8> -> real, shape: Pvt.Shape, now1: int, now2: int)
    requires Inv(s) && s.status == Enabled
    requires Parse(start) == Start && Parse(off) == Off
    ensures var s1 := Dispatch(s, from, start, decode, shape).s;
            var s2 := Dispatch(s1, from, off, decode, shape).s;
            var s3 := RazorReadyAsWritten(RazorReadyAsWritten(s2, now1), now2);
            s3.status == Disabled && s3.timerOn && !Inv(s3)
  {
  }

  /** `razorReady`, corrected: the second sensor to report ready starts the
      loop timer and the clock only while the system is running. */
  function RazorReady(s: Sys, now: int): (r: Sys)
    requires Inv(s)
    ensures Inv(r)
    ensures r.readyIMUs == s.readyIMUs + 1
    ensures r.timerOn <==> s.timerOn || (s.readyIMUs + 1 == 2 && s.status == Running)
    ensures r.clockStart == (if s.readyIMUs + 1 == 2 && s.status == Running then now else s.clockStart)
    ensures r == s.(readyIMUs := r.readyIMUs, timerOn := r.timerOn, clockStart := r.clockStart)
  {
    var s' := s.(readyIMUs := s.readyIMUs + 1);
    if s'.readyIMUs == 2 && s.status == Running then s'.(timerOn := true, clockStart := now) else s'
  }

  /** `razorGet`: the vector of sensor 1 or 2 replaces the stored one. */
  function RazorGet(s: Sys, id: int, q: seq<real>): (r: Sys)
    requires Valid(s) && |q| == Ahrs.GroupCount
    ensures Valid(r)
    ensures r == s.(q1 := r.q1, q2 := r.q2)
    ensures r.q1 == (if id == 1 then q else s.q1) && r.q2 == (if id == 2 then q else s.q2)
  {
    var s' := if id == 1 then s.(q1 := q) else s;
    if id == 2 then s'.(q2 := q) else s'
  }

  /** `motorGet`: the angle reported by motor id (1 or 2). */
  function MotorGet(s: Sys, id: int, angle: real): (r: Sys)
    requires Valid(s) && (id == 1 || id == 2)
    ensures Valid(r)
    ensures r == s.(mPos := r.mPos) && r.mPos[id - 1] == angle && r.mPos[2 - id] == s.mPos[2 - id]
  {
    s.(mPos := s.mPos[id - 1 := angle])
  }

  // ---------------------------------------------------------------------
  // The main loop

  /** Trigonometry the loop uses: asin and cos in degrees. */
  datatype Trig = Trig(asinDeg: real -> real, cosDeg: real -> real)

  /** Thigh pitch (deg) from a sensor quaternion. */
  function Pitch(q: seq<real>, trig: Trig): real
    requires |q| >= 4
  {
    trig.asinDeg(2.0 * (q[2] * q[3] + q[0] * q[1]))
  }

  /** The thigh readings of a frame: right pitch, left pitch (the left
      sensor is mounted mirrored, so its pitch is negated), and each side's
      vertical acceleration with gravity's share removed. */
  datatype Readings = Readings(rPitch: real, lPitch: real, rAcc: real, lAcc: real)

  function Read(s: Sys, trig: Trig): (rd: Readings)
    requires Valid(s)
    ensures rd.rPitch == Pitch(s.q1, trig) && rd.lPitch == -Pitch(s.q2, trig)
    ensures rd.rAcc == s.q1[4] + trig.cosDeg(rd.rPitch) && rd.lAcc == s.q2[4] + trig.cosDeg(rd.lPitch)
  {
    var rp := Pitch(s.q1, trig);
    var lp := -Pitch(s.q2, trig);
    Readings(rp, lp, s.q1[4] + trig.cosDeg(rp), s.q2[4] + trig.cosDeg(lp))
  }

  /** The telemetry vector: time, pitches, motor angles and scaled
      accelerations, offset for plotting. */
  function Telemetry8(t: real, rd: Readings, mPos: seq<real>): (v: seq<real>)
    requires |mPos| == 2
    ensures |v| == OutSize
  {
    [t, rd.rPitch + 35.0, rd.lPitch + 35.0, mPos[0], mPos[1], 0.0, 10.0 * rd.rAcc + 35.0, 10.0 * rd.lAcc + 35.0]
  }

  function MotorActions(es: seq<Control.Event>): (a: seq<Action>)
    ensures |a| == |es| && forall k :: 0 <= k < |es| ==> a[k] == Motor(es[k])
  {
    seq(|es|, k requires 0 <= k < |es| => Motor(es[k]))
  }

  /** Whether frame cf is due: the clock has reached 1000 cf / sampRate ms.
      With a zero sample rate the bound is infinite (or undefined for frame
      0), and no frame is ever due. */
  predicate FrameDue(s: Sys, now: int)
  {
    s.sampRate > 0 && (now - s.clockStart) as real >= 1000.0 * s.cf as real / s.sampRate as real
  }

  /** The time stamp (s) of frame cf: cf sample periods since the start. */
  function FrameTime(s: Sys): (t: real)
    requires s.sampRate > 0
    ensures t * s.sampRate as real == s.cf as real
  {
    s.cf as real / s.sampRate as real
  }

  /** One control frame: time stamp, readings, one tick of each controller
      (each gets its own pitch and acceleration and the other side's
      pitch), and the telemetry vector. */
  function RunFrame(s: Sys, now: int, trig: Trig): (r: Out)
    requires Valid(s) && s.sampRate > 0
    ensures Valid(r.s)
    ensures r.s.cf == s.cf + 1 && r.s.t == FrameTime(s)
    ensures var rd := Read(s, trig);
            var right := Control.Tick(s.right, Control.Frame(rd.rPitch, rd.lPitch, rd.rAcc, now));
            var left := Control.Tick(s.left, Control.Frame(rd.lPitch, rd.rPitch, rd.lAcc, now));
            r.s.right == right.c && r.s.left == left.c &&
            r.s.out == Telemetry8(r.s.t, rd, s.mPos) &&
            r.acts == [TimeUpdate(r.s.t)] + MotorActions(right.out) + MotorActions(left.out)
    ensures forall k :: 0 <= k < |r.acts| ==> r.acts[k].TimeUpdate? || r.acts[k].Motor?
    ensures r.s == s.(cf := r.s.cf, t := r.s.t, right := r.s.right, left := r.s.left, out := r.s.out)
  {
    var t := FrameTime(s);
    var rd := Read(s, trig);
    var right := Control.Tick(s.right, Control.Frame(rd.rPitch, rd.lPitch, rd.rAcc, now));
    var left := Control.Tick(s.left, Control.Frame(rd.lPitch, rd.rPitch, rd.lAcc, now));
    Out(s.(cf := s.cf + 1, t := t, right := right.c, left := left.c, out := Telemetry8(t, rd, s.mPos)),
        [TimeUpdate(t)] + MotorActions(right.out) + MotorActions(left.out))
  }

  /** `loop`, run on every timer tick: a control frame when one is due,
      then telemetry to the client's plot port once the frame count reaches
      pf, then a motor read once it reaches mf, each pushing its mark on by
      its skip. */
  function Loop(s: Sys, now: int, trig: Trig): (r: Out)
    requires Valid(s)
    ensures Valid(r.s)
    ensures r.s == s.(cf := r.s.cf, pf := r.s.pf, mf := r.s.mf, t := r.s.t, out := r.s.out,
                      right := r.s.right, left := r.s.left)
    // frames: at most one per call, never before its time
    ensures FrameDue(s, now) ==> r.s.cf == s.cf + 1 && (now - s.clockStart) * s.sampRate >= 1000 * s.cf
    ensures !FrameDue(s, now) ==> r.s.cf == s.cf && r.s.t == s.t && r.s.out == s.out &&
                                  r.s.right == s.right && r.s.left == s.left
    // a frame's telemetry vector is made of this call's readings
    ensures FrameDue(s, now) ==> r.s.out == Telemetry8(r.s.t, Read(s, trig), s.mPos)
    // a frame ticks both controllers and stamps the frame time; its own
    // actions lead, and a tick without a frame only paces
    ensures FrameDue(s, now) ==>
              var f := RunFrame(s, now, trig);
              r.s.t == f.s.t && r.s.right == f.s.right && r.s.left == f.s.left &&
              |f.acts| <= |r.acts| && r.acts[..|f.acts|] == f.acts
    ensures !FrameDue(s, now) ==> forall a :: a in r.acts ==> a.Telemetry? || a.MotorRead?
    // decimation
    ensures var tele := r.s.cf >= s.pf;
            r.s.pf == (if tele then s.pf + s.pskip else s.pf) &&
            (Telemetry(Peer(s.peer.addr, PlotPort), r.s.out) in r.acts <==> tele)
    ensures var read := r.s.cf >= s.mf;
            r.s.mf == (if read then s.mf + s.mskip else s.mf) &&
            (MotorRead(r.s.t) in r.acts <==> read)
    ensures CountTelemetry(r.acts) == (if r.s.cf >= s.pf then 1 else 0)
    ensures CountMotorReads(r.acts) == (if r.s.cf >= s.mf then 1 else 0)
  {
    if FrameDue(s, now) then
      FrameDueScaled(s, now);
      var frame := RunFrame(s, now, trig);
      Pace(frame.s, frame.acts)
    else
      Pace(s, [])
  }

  /** The decimation half of `loop`: telemetry once the frame count has
      reached pf, then a motor read once it has reached mf, each mark then
      pushed on by its skip. */
  function Pace(s: Sys, frameActs: seq<Action>): (r: Out)
    requires forall k :: 0 <= k < |frameActs| ==> frameActs[k].TimeUpdate? || frameActs[k].Motor?
    ensures r.s == s.(pf := r.s.pf, mf := r.s.mf)
    // the frame's actions come first, then only telemetry and motor reads
    ensures |frameActs| <= |r.acts| && r.acts[..|frameActs|] == frameActs
    ensures forall k :: |frameActs| <= k < |r.acts| ==> r.acts[k].Telemetry? || r.acts[k].MotorRead?
    ensures var tele := s.cf >= s.pf;
            r.s.pf == (if tele then s.pf + s.pskip else s.pf) &&
            (Telemetry(Peer(s.peer.addr, PlotPort), s.out) in r.acts <==> tele) &&
            CountTelemetry(r.acts) == (if tele then 1 else 0)
    ensures var read := s.cf >= s.mf;
            r.s.mf == (if read then s.mf + s.mskip else s.mf) &&
            (MotorRead(s.t) in r.acts <==> read) &&
            CountMotorReads(r.acts) == (if read then 1 else 0)
  {
    var tele := s.cf >= s.pf;
    var s2 := if tele then s.(pf := s.pf + s.pskip) else s;
    var a2 := if tele then [Telemetry(Peer(s.peer.addr, PlotPort), s.out)] else [];
    var read := s.cf >= s.mf;
    var s3 := if read then s2.(mf := s.mf + s.mskip) else s2;
    var a3 := if read then [MotorRead(s.t)] else [];
    PaceActs(frameActs, Telemetry(Peer(s.peer.addr, PlotPort), s.out), MotorRead(s.t), tele, read);
    Out(s3, frameActs + a2 + a3)
  }

  /** A frame's actions followed by an optional telemetry and an optional
      motor read: each appears, and is counted once, exactly when sent. */
  lemma PaceActs(frameActs: seq<Action>, tele: Action, read: Action, sendTele: bool, sendRead: bool)
    requires forall k :: 0 <= k < |frameActs| ==> frameActs[k].TimeUpdate? || frameActs[k].Motor?
    requires tele.Telemetry? && read.MotorRead?
    ensures var acts := frameActs + (if sendTele then [tele] else []) + (if sendRead then [read] else []);
            (tele in acts <==> sendTele) && (read in acts <==> sendRead) &&
            CountTelemetry(acts) == (if sendTele then 1 else 0) &&
            CountMotorReads(acts) == (if sendRead then 1 else 0)
  {
    var a2 := if sendTele then [tele] else [];
    var a3 := if sendRead then [read] else [];
    CountsOfFrame(frameActs);
    CountsAppend(frameActs, a2);
    CountsAppend(frameActs + a2, a3);
    assert tele !in frameActs;
    assert read !in frameActs;
  }

  /** A due frame in integer terms: the clock is at least 1000 cf / sampRate. */
  lemma FrameDueScaled(s: Sys, now: int)
    requires FrameDue(s, now)
    ensures (now - s.clockStart) * s.sampRate >= 1000 * s.cf
  {
    var e := (now - s.clockStart) as real;
    var sr := s.sampRate as real;
    var b := 1000.0 * s.cf as real;
    assert e >= b / sr;
    assert e * sr >= (b / sr) * sr;
    assert (b / sr) * sr == b;
    assert ((now - s.clockStart) * s.sampRate) as real == e * sr;
  }

  function CountTelemetry(a: seq<Action>): (n: nat)
    ensures n <= |a|
  {
    if |a| == 0 then 0 else (if a[0].Telemetry? then 1 else 0) + CountTelemetry(a[1..])
  }

  function CountMotorReads(a: seq<Action>): (n: nat)
    ensures n <= |a|
  {
    if |a| == 0 then 0 else (if a[0].MotorRead? then 1 else 0) + CountMotorReads(a[1..])
  }

  lemma {:induction false} CountsAppend(a: seq<Action>, b: seq<Action>)
    ensures CountTelemetry(a + b) == CountTelemetry(a) + CountTelemetry(b)
    ensures CountMotorReads(a + b) == CountMotorReads(a) + CountMotorReads(b)
    decreases |a|
  {
    if |a| == 0 {
      assert a + b == b;
    } else {
      assert (a + b)[1..] == a[1..] + b;
      CountsAppend(a[1..], b);
    }
  }

  /** A frame emits neither telemetry nor motor reads itself. */
  lemma CountsOfFrame(a: seq<Action>)
    requires forall k :: 0 <= k < |a| ==> a[k].TimeUpdate? || a[k].Motor?
    ensures CountTelemetry(a) == 0 && CountMotorReads(a) == 0
  {
    if |a| > 0 {
      CountsOfFrame(a[1..]);
    }
  }

  /** The loop over a run of timer ticks. */
  function Loops(s: Sys, nows: seq<int>, trig: Trig): (r: Out)
    requires Valid(s)
    ensures Valid(r.s)
    ensures r.s.cf <= s.cf + |nows|
    ensures r.s.pskip == s.pskip && r.s.mskip == s.mskip
    decreases |nows|
  {
    if |nows| == 0 then Out(s, [])
    else
      var first := Loop(s, nows[0], trig);
      var rest := Loops(first.s, nows[1..], trig);
      Out(rest.s, first.acts + rest.acts)
  }

  /** The decimation bound the loop keeps: the next telemetry frame pf and
      the next motor-read frame mf are never behind the frame count and
      never more than one skip ahead of it. */
  predicate Paced(s: Sys)
  {
    s.pskip >= 1 && s.mskip >= 1 &&
    s.cf <= s.pf <= s.cf + s.pskip && s.cf <= s.mf <= s.cf + s.mskip
  }

  /** Telemetry and motor reads are decimated: over any run of timer ticks
      that starts paced, k telemetry datagrams move pf on by exactly k
      skips, and pacing is kept; so after a `Start` (all counters zero)
      the number k of telemetry datagrams satisfies cf <= k * pskip <=
      cf + pskip, and likewise for motor reads with mskip. */
  lemma {:induction false} Decimation(s: Sys, nows: seq<int>, trig: Trig)
    requires Valid(s) && Paced(s)
    ensures Accounted(s, Loops(s, nows, trig))
    decreases |nows|
  {
    if |nows| == 0 {
      assert Loops(s, nows, trig) == Out(s, []);
    } else {
      var first := Loop(s, nows[0], trig);
      var rest := Loops(first.s, nows[1..], trig);
      PacedStep(s, nows[0], trig);
      Decimation(first.s, nows[1..], trig);
      AccountedCompose(s, first, rest);
      assert Loops(s, nows, trig) == Out(rest.s, first.acts + rest.acts);
    }
  }

  /** Run r, started from s0, is paced and moved each mark by one skip per
      datagram it sent. */
  predicate Accounted(s0: Sys, r: Out)
  {
    Paced(r.s) && r.s.pskip == s0.pskip && r.s.mskip == s0.mskip &&
    r.s.pf == s0.pf + CountTelemetry(r.acts) * s0.pskip &&
    r.s.mf == s0.mf + CountMotorReads(r.acts) * s0.mskip
  }

  lemma AccountedCompose(s0: Sys, first: Out, rest: Out)
    requires Accounted(s0, first) && Accounted(first.s, rest)
    ensures Accounted(s0, Out(rest.s, first.acts + rest.acts))
  {
    CountsAppend(first.acts, rest.acts);
    Distribute(CountTelemetry(first.acts), CountTelemetry(rest.acts), s0.pskip);
    Distribute(CountMotorReads(first.acts), CountMotorReads(rest.acts), s0.mskip);
  }

  lemma Distribute(a: nat, b: nat, k: nat)
    ensures (a + b) * k == a * k + b * k
  {
  }

  /** One tick keeps the decimation bound and moves each mark by one skip
      per datagram it sends. */
  lemma PacedStep(s: Sys, now: int, trig: Trig)
    requires Valid(s) && Paced(s)
    ensures Accounted(s, Loop(s, now, trig))
  {
  }

  /** From `Start` on: with the counters at zero, telemetry is sent on
      roughly every pskip-th frame, never less, never once more. */
  lemma TelemetryRate(s: Sys, nows: seq<int>, trig: Trig)
    requires Valid(s) && s.cf == 0 && s.pf == 0 && s.mf == 0 && s.pskip >= 1 && s.mskip >= 1
    ensures var r := Loops(s, nows, trig);
            r.s.cf <= CountTelemetry(r.acts) * s.pskip <= r.s.cf + s.pskip &&
            r.s.cf <= CountMotorReads(r.acts) * s.mskip <= r.s.cf + s.mskip
  {
    Decimation(s, nows, trig);
  }

  /** Readings reach the telemetry: after `razorGet` and `motorGet`, the
      next control frame reports the new motor angle and derives its pitch
      from the new sensor vector. */
  lemma ReadingsReachTelemetry(s: Sys, id: int, q: seq<real>, angle: real, now: int, trig: Trig)
    requires Valid(s) && (id == 1 || id == 2) && |q| == Ahrs.GroupCount
    requires FrameDue(s, now)
    ensures var r := Loop(MotorGet(RazorGet(s, id, q), id, angle), now, trig).s;
            r.out[2 + id] == angle &&
            (id == 1 ==> r.out[1] == Pitch(q, trig) + 35.0) &&
            (id == 2 ==> r.out[2] == -Pitch(q, trig) + 35.0)
  {
    var s1 := MotorGet(RazorGet(s, id, q), id, angle);
    assert FrameDue(s1, now);
    var r := Loop(s1, now, trig).s;
    var rd := Read(s1, trig);
    TelemetryPlaces(r.t, rd, s1.mPos);
  }

  /** Where the telemetry vector puts each reading. */
  lemma TelemetryPlaces(t: real, rd: Readings, mPos: seq<real>)
    requires |mPos| == 2
    ensures var v := Telemetry8(t, rd, mPos);
            v[0] == t && v[1] == rd.rPitch + 35.0 && v[2] == rd.lPitch + 35.0 &&
            v[3] == mPos[0] && v[4] == mPos[1]
  {
  }
}

=== FILE: param.dfy ===
/** The parameter store: ten knobs per channel (right 0, left 1), one
    trajectory per channel regenerated when a trajectory knob changes, and
    the gate that publishes a trajectory only when it is feasible
    (Beaglebone/Param.h, Beaglebone/Param.cpp). Emitted signals become an
    event list; the settings file becomes an optional input. */
module Param {
  import opened Wrappers
  import Pvt

  /** Motor limits the feasibility check is run against (rpm, rpm/s). */
  const MaxVel: real := 12500.0
  const MaxAcc: real := 1000000.0

  /** Knobs per channel. */
  const ParamCount: nat := 10

  /** Channels: right and left. */
  const ChannelCount: nat := 2

  /** The built-in settings, slot by slot: kr 40 deg, ks 0.16, kw -0.1,
      cl 0.70 s, it 0 s, st 0.05 g, mt 0.25 g, nf 25 frames, tw 10 deg,
      tp 4 deg. */
  const Defaults: seq<real> := [40.0, 0.16, -0.1, 0.70, 0.00, 0.05, 0.25, 25.0, 10.0, 4.0]

  datatype Store = Store(cPar: seq<seq<real>>, curves: seq<Pvt.Curve>)

  /** `paramSend(ch, knob, val)` and `PVTSend(ch, P, V, T)`. */
  datatype Event =
    | ParamSend(ch: int, knob: int, val: real)
    | PvtSend(ch: int, P: seq<int>, V: seq<int>, T: seq<int>)

  /** Every published trajectory has one position and one velocity per
      duration. */
  predicate WellShaped(out: seq<Event>)
  {
    forall e :: e in out && e.PvtSend? ==> |e.P| == |e.T| && |e.V| == |e.T|
  }

  /** Two channels, each curve with a positive gear ratio and a nonzero
      count scale, so that its feasibility can be checked. */
  predicate Valid(st: Store)
  {
    |st.cPar| == ChannelCount && |st.curves| == ChannelCount &&
    forall ch :: 0 <= ch < ChannelCount ==> st.curves[ch].grt > 0.0 && st.curves[ch].qpd != 0.0
  }

  /** The constructor: no knobs yet, both curves with 6 intervals, gear
      ratio 160 and 4096 counts per revolution. */
  function Create(): (st: Store)
    ensures Valid(st)
    ensures st.cPar == [[], []]
    ensures forall ch :: 0 <= ch < ChannelCount ==>
              st.curves[ch].ns == 6 && st.curves[ch].grt == 160.0 && st.curves[ch].qpd * 360.0 == 4096.0 * 160.0
  {
    var c := Pvt.New(Pvt.DefaultSteps, Pvt.DefaultRatio, Pvt.DefaultCountsPerRev);
    Store([[], []], [c, c])
  }

  /** The trajectory knobs of a channel: cl from slot 3, ks 1, kw 2, kr 0. */
  function CurveKnobs(knobs: seq<real>): (k: Pvt.Knobs)
    requires |knobs| >= 4
    ensures k.cl == knobs[3] && k.ks == knobs[1] && k.kw == knobs[2] && k.kr == knobs[0]
  {
    Pvt.Knobs(knobs[3], knobs[1], knobs[2], knobs[0])
  }

  /** `get(ch, knob)`. */
  function Get(st: Store, ch: int, knob: int): real
    requires 0 <= ch < |st.cPar| && 0 <= knob < |st.cPar[ch]|
  {
    st.cPar[ch][knob]
  }

  datatype SetResult = SetResult(st: Store, out: seq<Event>, ok: bool)

  /** `set(ch, knob, val)`: store the value and announce it; for a
      trajectory knob (0..3) regenerate the channel's curve, which is kept
      even when infeasible, and publish it only when it passes the check
      against the motor limits. The result is false exactly when a
      regenerated curve was infeasible. */
  function Set(st: Store, ch: int, knob: int, val: real, shape: Pvt.Shape): (r: SetResult)
    requires Valid(st) && 0 <= ch < ChannelCount && 0 <= knob < |st.cPar[ch]|
    requires knob < 4 ==> |st.cPar[ch]| >= 4
    ensures Valid(r.st)
    ensures |r.st.cPar[ch]| == |st.cPar[ch]| && r.st.cPar[ch][knob] == val
    ensures forall j :: 0 <= j < |st.cPar[ch]| && j != knob ==> r.st.cPar[ch][j] == st.cPar[ch][j]
    ensures r.st.cPar[1 - ch] == st.cPar[1 - ch] && r.st.curves[1 - ch] == st.curves[1 - ch]
    ensures |r.out| >= 1 && r.out[0] == ParamSend(ch, knob, val) && WellShaped(r.out)
    ensures knob >= 4 ==> r.ok && r.out == [ParamSend(ch, knob, val)] && r.st.curves == st.curves
    ensures knob < 4 ==>
              var c := Pvt.Gen(st.curves[ch], CurveKnobs(r.st.cPar[ch]), shape);
              r.st.curves[ch] == c &&
              (r.ok <==> Pvt.Feasible(c, MaxVel, MaxAcc)) &&
              r.out == [ParamSend(ch, knob, val)] + (if r.ok then [PvtSend(ch, c.P, c.V, c.T)] else [])
  {
    var knobs := st.cPar[ch][knob := val];
    var cPar := st.cPar[ch := knobs];
    var sent := [ParamSend(ch, knob, val)];
    if knob < 4 then
      var c := Pvt.Gen(st.curves[ch], CurveKnobs(knobs), shape);
      var st' := Store(cPar, st.curves[ch := c]);
      if Pvt.Feasible(c, MaxVel, MaxAcc) then
        SetResult(st', sent + [PvtSend(ch, c.P, c.V, c.T)], true)
      else
        SetResult(st', sent, false)
    else
      SetResult(Store(cPar, st.curves), sent, true)
  }

  /** `get` returns the value most recently stored by `set` for that
      channel and knob; every other knob reads as before. */
  lemma GetAfterSet(st: Store, ch: int, knob: int, val: real, shape: Pvt.Shape, ch2: int, knob2: int)
    requires Valid(st) && 0 <= ch < ChannelCount && 0 <= knob < |st.cPar[ch]|
    requires knob < 4 ==> |st.cPar[ch]| >= 4
    requires 0 <= ch2 < ChannelCount && 0 <= knob2 < |st.cPar[ch2]|
    ensures 0 <= knob2 < |Set(st, ch, knob, val, shape).st.cPar[ch2]|
    ensures Get(Set(st, ch, knob, val, shape).st, ch2, knob2) ==
            if ch2 == ch && knob2 == knob then val else Get(st, ch2, knob2)
  {
    assert ch2 == ch || ch2 == 1 - ch;
  }

  /** A trajectory reaches the controllers only through a feasible `set`:
      whenever `set` publishes a curve, that curve passes the check against
      the motor limits, and so (Pvt.FeasibleBoundsMotion) its motion between
      waypoints stays within them. */
  lemma PublishedCurvesAreFeasible(st: Store, ch: int, knob: int, val: real, shape: Pvt.Shape, e: Event)
    requires Valid(st) && 0 <= ch < ChannelCount && 0 <= knob < |st.cPar[ch]|
    requires knob < 4 ==> |st.cPar[ch]| >= 4
    requires e in Set(st, ch, knob, val, shape).out && e.PvtSend?
    ensures knob < 4 && e.ch == ch
    ensures var c := Set(st, ch, knob, val, shape).st.curves[ch];
            Pvt.Checkable(c) && c.P == e.P && c.V == e.V && c.T == e.T && Pvt.Feasible(c, MaxVel, MaxAcc)
  {
  }

  // ---------------------------------------------------------------------
  // Start-up

  /** The knobs `setup` appends to channel ch: the channel's column of the
      settings file when it was found, else the built-in defaults. */
  function Initial(loaded: Option<seq<(real, real)>>, ch: int): (knobs: seq<real>)
    requires loaded.Some? ==> |loaded.value| == ParamCount
    requires 0 <= ch < ChannelCount
    ensures |knobs| == ParamCount
    ensures loaded.None? ==> knobs == Defaults
    ensures loaded.Some? ==> forall j :: 0 <= j < ParamCount ==>
              knobs[j] == if ch == 0 then loaded.value[j].0 else loaded.value[j].1
  {
    match loaded
    case None => Defaults
    case Some(rows) => seq(ParamCount, j requires 0 <= j < ParamCount => if ch == 0 then rows[j].0 else rows[j].1)
  }

  /** One `paramSend` per knob of a channel, in slot order. */
  function ParamSends(ch: int, knobs: seq<real>): (out: seq<Event>)
    ensures |out| == |knobs|
    ensures forall j :: 0 <= j < |knobs| ==> out[j] == ParamSend(ch, j, knobs[j])
  {
    seq(|knobs|, j requires 0 <= j < |knobs| => ParamSend(ch, j, knobs[j]))
  }

  /** `setup` for one channel: append its knobs, regenerate its curve, and
      publish the curve (unchecked) followed by every knob. */
  function SetupChannel(st: Store, ch: int, added: seq<real>, shape: Pvt.Shape): (r: (Store, seq<Event>))
    requires Valid(st) && 0 <= ch < ChannelCount && |added| == ParamCount
    ensures Valid(r.0) && WellShaped(r.1)
    ensures r.0.cPar == st.cPar[ch := st.cPar[ch] + added]
    ensures r.0.curves == st.curves[ch := Pvt.Gen(st.curves[ch], CurveKnobs(st.cPar[ch] + added), shape)]
    ensures var c := r.0.curves[ch];
            r.1 == [PvtSend(ch, c.P, c.V, c.T)] + ParamSends(ch, r.0.cPar[ch])
  {
    var knobs := st.cPar[ch] + added;
    var c := Pvt.Gen(st.curves[ch], CurveKnobs(knobs), shape);
    (Store(st.cPar[ch := knobs], st.curves[ch := c]), [PvtSend(ch, c.P, c.V, c.T)] + ParamSends(ch, knobs))
  }

  /** `setup`: right channel, then left channel. */
  function Setup(st: Store, loaded: Option<seq<(real, real)>>, shape: Pvt.Shape): (r: (Store, seq<Event>))
    requires Valid(st)
    requires loaded.Some? ==> |loaded.value| == ParamCount
    ensures Valid(r.0) && WellShaped(r.1)
    ensures forall ch :: 0 <= ch < ChannelCount ==>
              r.0.cPar[ch] == st.cPar[ch] + Initial(loaded, ch) &&
              r.0.curves[ch] == Pvt.Gen(st.curves[ch], CurveKnobs(r.0.cPar[ch]), shape)
    ensures r.1 == [PvtSend(0, r.0.curves[0].P, r.0.curves[0].V, r.0.curves[0].T)] + ParamSends(0, r.0.cPar[0]) +
                   [PvtSend(1, r.0.curves[1].P, r.0.curves[1].V, r.0.curves[1].T)] + ParamSends(1, r.0.cPar[1])
  {
    var right := SetupChannel(st, 0, Initial(loaded, 0), shape);
    var left := SetupChannel(right.0, 1, Initial(loaded, 1), shape);
    (left.0, right.1 + left.1)
  }

  /** Without a settings file a fresh store starts with the built-in
      defaults on both channels, and announces one curve and ten knobs per
      channel: 22 events. */
  lemma SetupWithoutFile(shape: Pvt.Shape)
    ensures var r := Setup(Create(), None, shape);
            r.0.cPar == [Defaults, Defaults] && |r.1| == 2 * (1 + ParamCount) &&
            r.1[0].PvtSend? && r.1[0].ch == 0 && r.1[1 + ParamCount].PvtSend? && r.1[1 + ParamCount].ch == 1 &&
            forall j :: 0 <= j < ParamCount ==>
              r.1[1 + j] == ParamSend(0, j, Defaults[j]) && r.1[2 + ParamCount + j] == ParamSend(1, j, Defaults[j])
  {
    var r := Setup(Create(), None, shape);
    assert Initial(None, 0) == Defaults && Initial(None, 1) == Defaults;
    assert Create().cPar[0] == [] && Create().cPar[1] == [];
    assert r.0.cPar[0] == [] + Defaults && r.0.cPar[1] == [] + Defaults;
    assert [] + Defaults == Defaults;
    assert |r.0.cPar| == 2 && r.0.cPar[0] == Defaults && r.0.cPar[1] == Defaults;
    assert r.0.cPar == [Defaults, Defaults];
  }

  /** The default cycle length 0.70 s over 6 intervals gives six intervals
      of 117 ms and the terminator, which passes the duration gate. */
  lemma DefaultCurveDurations(shape: Pvt.Shape)
    ensures var c := Pvt.Gen(Create().curves[0], CurveKnobs(Defaults), shape);
            c.T == [117, 117, 117, 117, 117, 117, 0] && Pvt.GateOk(c)
  {
    var c := Pvt.Gen(Create().curves[0], CurveKnobs(Defaults), shape);
    assert Pvt.Round(0.70 / 6.0 * 1000.0) == 117;
    assert c.T == [117, 117, 117, 117, 117, 117, 0];
  }
}

=== FILE: pvt.dfy ===
/** A motor trajectory in EPOS2 position-velocity-time form: ns intervals of
    (position, velocity, duration) plus a terminating all-zero entry, the
    generator that fills it from the gait knobs, and the feasibility check
    that fits a cubic to every interval (Beaglebone/PVT.h, Beaglebone/PVT.cpp). */
module Pvt {

  /** Constructor defaults: six intervals, gear ratio 160, 4*1024 quadrature
      counts per motor revolution. */
  const DefaultSteps: int := 6
  const DefaultRatio: real := 160.0
  const DefaultCountsPerRev: int := 4096

  /** The interval count is an `unsigned short`. */
  const StepsModulus: int := 65536

  /** P in quadrature counts, V in motor rpm, T in milliseconds; grt is the
      gear ratio and qpd the counts per degree at the gear output. */
  datatype Curve = Curve(ns: nat, grt: real, qpd: real, P: seq<int>, V: seq<int>, T: seq<int>)

  /** The magnitude of x (also the controller's |acceleration|). */
  function Abs(x: real): (r: real)
    ensures r >= 0.0 && (r == x || r == -x)
  {
    if x < 0.0 then -x else x
  }

  function Max(x: real, y: real): (r: real)
    ensures r >= x && r >= y && (r == x || r == y)
  {
    if x < y then y else x
  }

  /** C `round`: to the nearest integer, halves away from zero. */
  function Round(x: real): (r: int)
    ensures x >= 0.0 ==> x - 0.5 < r as real <= x + 0.5
    ensures x < 0.0 ==> x - 0.5 <= r as real < x + 0.5
  {
    if x >= 0.0 then (x + 0.5).Floor else -((-x + 0.5).Floor)
  }

  lemma RoundSymmetric(x: real)
    ensures Round(-x) == -Round(x) || (x >= 0.0 && x == x.Floor as real + 0.5)
  {
  }

  lemma RoundInt(n: int)
    ensures Round(n as real) == n
  {
  }

  /** `set`: store the interval count (truncated to 16 bits), the gear
      ratio and the counts per output degree; the arrays are kept. */
  function Configure(c: Curve, nsteps: int, ratio: real, qpr: int): (r: Curve)
    ensures 0 <= r.ns < StepsModulus && (r.ns - nsteps) % StepsModulus == 0
    ensures r.grt == ratio
    ensures r.qpd * 360.0 == qpr as real * ratio
    ensures r.P == c.P && r.V == c.V && r.T == c.T
  {
    c.(ns := nsteps % StepsModulus, grt := ratio, qpd := qpr as real * ratio / 360.0)
  }

  /** The constructor: `set` on empty arrays. */
  function New(nsteps: int, ratio: real, qpr: int): (r: Curve)
    ensures r.P == [] && r.V == [] && r.T == []
    ensures 0 <= r.ns < StepsModulus && (r.ns - nsteps) % StepsModulus == 0
    ensures r.grt == ratio && r.qpd * 360.0 == qpr as real * ratio
  {
    Configure(Curve(0, 0.0, 0.0, [], [], []), nsteps, ratio, qpr)
  }

  // ---------------------------------------------------------------------
  // Generation (the array shape; the trigonometric profile is a parameter)

  /** The gait knobs `gen` takes: cycle length (s), peak displacement, peak
      width and maximum knee flexion (deg). */
  datatype Knobs = Knobs(cl: real, ks: real, kw: real, kr: real)

  /** The output-joint profile: for the knobs (with the cycle length already
      adjusted to a whole number of milliseconds per interval) and a time t,
      the position (deg) and velocity (deg/s). */
  type Shape = (Knobs, real) -> (real, real)

  /** Interval length: cl / ns rounded to the millisecond, in seconds. */
  function StepLength(cl: real, ns: nat): (dt: real)
    requires ns > 0
    ensures dt * 1000.0 == Round(cl / ns as real * 1000.0) as real
    ensures -0.0005 <= dt - cl / ns as real <= 0.0005
  {
    Round(cl / ns as real * 1000.0) as real / 1000.0
  }

  /** The shape sampled at the end of interval i, t = (i+1)dt, with the
      cycle length adjusted to ns*dt. */
  function Sample(ns: nat, k: Knobs, shape: Shape, i: int): (real, real)
    requires ns > 0
  {
    var dt := StepLength(k.cl, ns);
    shape(k.(cl := ns as real * dt), (i + 1) as real * dt)
  }

  /** The position entry for interval i: the sampled output angle in counts. */
  function PosCount(ns: nat, qpd: real, k: Knobs, shape: Shape, i: int): int
    requires ns > 0
  {
    Round(Sample(ns, k, shape, i).0 * qpd)
  }

  /** The velocity entry for interval i: the sampled output velocity (deg/s)
      in motor rpm, grt/6 per deg/s. */
  function VelCount(ns: nat, grt: real, k: Knobs, shape: Shape, i: int): int
    requires ns > 0
  {
    Round(Sample(ns, k, shape, i).1 * grt / 6.0)
  }

  /** `gen`: ns sampled entries, every interval lasting dt, then the
      terminator (0, 0, 0). With ns == 0 only the terminator remains. */
  function Gen(c: Curve, k: Knobs, shape: Shape): (r: Curve)
    ensures r.ns == c.ns && r.grt == c.grt && r.qpd == c.qpd
    ensures |r.P| == c.ns + 1 && |r.V| == c.ns + 1 && |r.T| == c.ns + 1
    ensures r.P[c.ns] == 0 && r.V[c.ns] == 0 && r.T[c.ns] == 0
    ensures c.ns > 0 ==> forall i :: 0 <= i < c.ns ==>
              r.P[i] == PosCount(c.ns, c.qpd, k, shape, i) && r.V[i] == VelCount(c.ns, c.grt, k, shape, i)
    ensures c.ns > 0 ==> forall i :: 0 <= i < c.ns ==>
              r.T[i] == Round(k.cl / c.ns as real * 1000.0)
  {
    if c.ns == 0 then
      Curve(c.ns, c.grt, c.qpd, [0], [0], [0])
    else
      var ms := Round(StepLength(k.cl, c.ns) * 1000.0);
      RoundInt(Round(k.cl / c.ns as real * 1000.0));
      Curve(c.ns, c.grt, c.qpd,
            seq(c.ns, i => PosCount(c.ns, c.qpd, k, shape, i)) + [0],
            seq(c.ns, i => VelCount(c.ns, c.grt, k, shape, i)) + [0],
            seq(c.ns, i => ms) + [0])
  }

  /** `gen` discards the previous arrays: the result depends only on the
      interval count, gear ratio and counts per degree. */
  lemma GenIgnoresPreviousArrays(c1: Curve, c2: Curve, k: Knobs, shape: Shape)
    requires c1.ns == c2.ns && c1.grt == c2.grt && c1.qpd == c2.qpd
    ensures Gen(c1, k, shape) == Gen(c2, k, shape)
  {
    var r1, r2 := Gen(c1, k, shape), Gen(c2, k, shape);
    assert r1.P == r2.P && r1.V == r2.V && r1.T == r2.T;
  }

  // ---------------------------------------------------------------------
  // Feasibility check

  /** One interval as `check` sees it, at the gear output: start and end
      position (deg), start and end velocity (deg/s), duration (s). */
  datatype Segment = Segment(p0: real, v0: real, p1: real, v1: real, dt: real)

  /** The cubic p(t) = p0 + v0 t + b t^2 + a t^3 fitted to a segment. */
  function CoefA(s: Segment): real
    requires s.dt != 0.0
  {
    (2.0 * (s.p0 - s.p1) + s.dt * (s.v0 + s.v1)) / (s.dt * s.dt * s.dt)
  }

  function CoefB(s: Segment): real
    requires s.dt != 0.0
  {
    (3.0 * (s.p1 - s.p0) - s.dt * (2.0 * s.v0 + s.v1)) / (s.dt * s.dt)
  }

  function Pos(s: Segment, t: real): real
    requires s.dt != 0.0
  {
    s.p0 + s.v0 * t + CoefB(s) * t * t + CoefA(s) * t * t * t
  }

  function Vel(s: Segment, t: real): real
    requires s.dt != 0.0
  {
    s.v0 + 2.0 * CoefB(s) * t + 3.0 * CoefA(s) * t * t
  }

  function Acc(s: Segment, t: real): real
    requires s.dt != 0.0
  {
    2.0 * CoefB(s) + 6.0 * CoefA(s) * t
  }

  /** The zero-acceleration time t0 = -b / (3a). */
  function NullAccTime(s: Segment): real
    requires s.dt != 0.0 && CoefA(s) != 0.0
  {
    NullAcc(CoefA(s), CoefB(s))
  }

  function NullAcc(a: real, b: real): real
    requires a != 0.0
  {
    -b / (3.0 * a)
  }

  /** Whether the interior velocity candidate is counted. With a == 0 or
      dt == 0 the IEEE value of t0 is infinite or NaN and fails the test
      0 < t0 < dt. */
  predicate HasInterior(s: Segment)
  {
    s.dt != 0.0 && CoefA(s) != 0.0 && 0.0 < NullAccTime(s) < s.dt
  }

  /** The candidates of one interval in terms of its coefficients: the end
      velocity, the velocity v0 + b t0 when t0 lies strictly inside, and the
      accelerations 2b and 2b + 6a dt at both ends. */
  function VelPeakOf(v0: real, v1: real, a: real, b: real, dt: real): real
  {
    if a != 0.0 && 0.0 < NullAcc(a, b) < dt then Max(Abs(v1), Abs(v0 + b * NullAcc(a, b)))
    else Abs(v1)
  }

  function AccPeakOf(a: real, b: real, dt: real): real
  {
    Max(Abs(2.0 * b), Abs(2.0 * b + 6.0 * a * dt))
  }

  /** The largest velocity magnitude one interval contributes. */
  function VelPeak(s: Segment): (r: real)
    ensures r >= Abs(s.v1)
    ensures HasInterior(s) ==> r >= Abs(s.v0 + CoefB(s) * NullAccTime(s))
  {
    if s.dt == 0.0 then Abs(s.v1) else VelPeakOf(s.v0, s.v1, CoefA(s), CoefB(s), s.dt)
  }

  /** The largest acceleration magnitude one interval contributes. With
      dt == 0 both IEEE candidates are infinite or NaN: only the infinite
      case has an effect, see Blows. */
  function AccPeak(s: Segment): (r: real)
    ensures r >= 0.0
    ensures s.dt != 0.0 ==> r >= Abs(2.0 * CoefB(s)) && r >= Abs(2.0 * CoefB(s) + 6.0 * CoefA(s) * s.dt)
  {
    if s.dt == 0.0 then 0.0 else AccPeakOf(CoefA(s), CoefB(s), s.dt)
  }

  /** A zero-length interval with a position jump: the IEEE acceleration
      maximum becomes infinite and the curve is rejected. */
  predicate Blows(s: Segment)
  {
    s.dt == 0.0 && s.p1 != s.p0
  }

  /** What `check` needs: arrays covering the ns intervals, a positive gear
      ratio and a nonzero count scale. */
  predicate Checkable(c: Curve)
  {
    c.ns <= |c.P| && c.ns <= |c.V| && c.ns <= |c.T| && c.grt > 0.0 && c.qpd != 0.0
  }

  /** End position (deg) and velocity (deg/s) of interval i. */
  function EndPos(c: Curve, i: int): real
    requires Checkable(c) && 0 <= i < c.ns
  {
    c.P[i] as real / c.qpd
  }

  function EndVel(c: Curve, i: int): real
    requires Checkable(c) && 0 <= i < c.ns
  {
    c.V[i] as real * 6.0 / c.grt
  }

  /** Interval i: it starts at rest at 0 deg, or where interval i-1 ended. */
  function Seg(c: Curve, i: int): (s: Segment)
    requires Checkable(c) && 0 <= i < c.ns
    ensures s.p1 == EndPos(c, i) && s.v1 == EndVel(c, i)
    ensures s.p0 == (if i == 0 then 0.0 else EndPos(c, i - 1))
    ensures s.v0 == (if i == 0 then 0.0 else EndVel(c, i - 1))
    ensures s.dt * 1000.0 == c.T[i] as real
  {
    Segment(if i == 0 then 0.0 else EndPos(c, i - 1), if i == 0 then 0.0 else EndVel(c, i - 1),
            EndPos(c, i), EndVel(c, i), c.T[i] as real / 1000.0)
  }

  /** The duration gate: at most 255 ms everywhere, and positive except
      for the last interval. The terminator is not inspected. */
  predicate GateAt(c: Curve, i: int)
    requires 0 <= i < c.ns <= |c.T|
  {
    c.T[i] <= 255 && (i < c.ns - 1 ==> c.T[i] > 0)
  }

  predicate GateOk(c: Curve)
    requires c.ns <= |c.T|
  {
    forall i :: 0 <= i < c.ns ==> GateAt(c, i)
  }

  predicate NoBlowBefore(c: Curve, n: int)
    requires Checkable(c) && n <= c.ns
  {
    forall i :: 0 <= i < n ==> !Blows(Seg(c, i))
  }

  /** Running maxima over the first n intervals, at the gear output. */
  function MaxVel(c: Curve, n: int): (m: real)
    requires Checkable(c) && 0 <= n <= c.ns
    ensures m >= 0.0
  {
    if n == 0 then 0.0 else Max(MaxVel(c, n - 1), VelPeak(Seg(c, n - 1)))
  }

  function MaxAcc(c: Curve, n: int): (m: real)
    requires Checkable(c) && 0 <= n <= c.ns
    ensures m >= 0.0
  {
    if n == 0 then 0.0 else Max(MaxAcc(c, n - 1), AccPeak(Seg(c, n - 1)))
  }

  /** Output-side deg/s (or deg/s^2) to motor rpm (or rpm/s): grt / 6. */
  function ToMotor(x: real, grt: real): real
  {
    x * grt / 6.0
  }

  /** The verdict of `check(maxvel, maxacc)`, bounds in motor rpm and rpm/s. */
  predicate Feasible(c: Curve, maxvel: real, maxacc: real)
    requires Checkable(c)
  {
    GateOk(c) && NoBlowBefore(c, c.ns) &&
    ToMotor(MaxVel(c, c.ns), c.grt) <= maxvel && ToMotor(MaxAcc(c, c.ns), c.grt) <= maxacc
  }

  /** `check`, statement by statement, over exact reals. */
  method Check(c: Curve, maxvel: real, maxacc: real) returns (ok: bool)
    requires Checkable(c)
    ensures ok <==> Feasible(c, maxvel, maxacc)
  {
    var mv, ma := 0.0, 0.0;
    var p0, v0 := 0.0, 0.0;
    var blown := false;
    var i := 0;
    while i < c.ns
      invariant 0 <= i <= c.ns
      invariant forall j :: 0 <= j < i ==> GateAt(c, j)
      invariant mv == MaxVel(c, i) && ma == MaxAcc(c, i)
      invariant blown <==> !NoBlowBefore(c, i)
      invariant p0 == (if i == 0 then 0.0 else EndPos(c, i - 1))
      invariant v0 == (if i == 0 then 0.0 else EndVel(c, i - 1))
    {
      if c.T[i] > 255 || (i < c.ns - 1 && c.T[i] <= 0) {
        GateRejects(c, i, maxvel, maxacc);
        return false;
      }
      mv, ma, blown, p0, v0 := CheckStep(c, i, mv, ma, blown, p0, v0);
      i := i + 1;
    }
    Verdict(c, mv, ma, blown, maxvel, maxacc);
    mv := ToMotor(mv, c.grt);
    ma := ToMotor(ma, c.grt);
    ok := !blown && !(mv > maxvel || ma > maxacc);
  }

  /** A duration outside the gate makes the curve infeasible. */
  lemma GateRejects(c: Curve, i: int, maxvel: real, maxacc: real)
    requires Checkable(c) && 0 <= i < c.ns
    requires c.T[i] > 255 || (i < c.ns - 1 && c.T[i] <= 0)
    ensures !Feasible(c, maxvel, maxacc)
  {
    assert !GateAt(c, i);
  }

  /** Past the gate, the verdict is the comparison of the converted maxima. */
  lemma Verdict(c: Curve, mv: real, ma: real, blown: bool, maxvel: real, maxacc: real)
    requires Checkable(c) && forall j :: 0 <= j < c.ns ==> GateAt(c, j)
    requires mv == MaxVel(c, c.ns) && ma == MaxAcc(c, c.ns)
    requires blown <==> !NoBlowBefore(c, c.ns)
    ensures (!blown && !(ToMotor(mv, c.grt) > maxvel || ToMotor(ma, c.grt) > maxacc)) <==> Feasible(c, maxvel, maxacc)
  {
  }

  /** Interval i of `check`'s loop past the duration gate: read its end
      state, fold its candidates into the maxima and move the start state on. */
  method CheckStep(c: Curve, i: int, mv: real, ma: real, blown: bool, p0: real, v0: real)
    returns (mv': real, ma': real, blown': bool, p1: real, v1: real)
    requires Checkable(c) && 0 <= i < c.ns
    requires mv == MaxVel(c, i) && ma == MaxAcc(c, i)
    requires blown <==> !NoBlowBefore(c, i)
    requires p0 == (if i == 0 then 0.0 else EndPos(c, i - 1))
    requires v0 == (if i == 0 then 0.0 else EndVel(c, i - 1))
    ensures mv' == MaxVel(c, i + 1) && ma' == MaxAcc(c, i + 1)
    ensures blown' <==> !NoBlowBefore(c, i + 1)
    ensures p1 == EndPos(c, i) && v1 == EndVel(c, i)
  {
    p1 := c.P[i] as real / c.qpd;
    v1 := c.V[i] as real * 6.0 / c.grt;
    var dt := c.T[i] as real / 1000.0;
    assert Seg(c, i) == Segment(p0, v0, p1, v1, dt);
    var jump;
    mv', ma', jump := UpdateMaxima(p0, v0, p1, v1, dt, mv, ma);
    blown' := blown || jump;
  }

  /** One iteration of `check`'s loop body after the duration gate: fold
      the interval's velocity and acceleration candidates into the running
      maxima; jump reports an interval that makes the acceleration maximum
      infinite. */
  method UpdateMaxima(p0: real, v0: real, p1: real, v1: real, dt: real, mv: real, ma: real)
    returns (mv': real, ma': real, jump: bool)
    requires mv >= 0.0 && ma >= 0.0
    ensures mv' == Max(mv, VelPeak(Segment(p0, v0, p1, v1, dt)))
    ensures ma' == Max(ma, AccPeak(Segment(p0, v0, p1, v1, dt)))
    ensures jump <==> Blows(Segment(p0, v0, p1, v1, dt))
  {
    var s := Segment(p0, v0, p1, v1, dt);
    if dt == 0.0 {
      // IEEE: a, b and t0 are infinite or NaN, so only the end velocity
      // compares greater; a position jump makes 2b infinite.
      mv' := if Abs(v1) > mv then Abs(v1) else mv;
      ma' := ma;
      jump := p1 != p0;
    } else {
      mv', ma' := FoldCandidates(v0, v1, CoefA(s), CoefB(s), dt, mv, ma);
      jump := false;
    }
  }

  /** `check`'s candidate updates for an interval with coefficients a, b. */
  method FoldCandidates(v0: real, v1: real, a: real, b: real, dt: real, mv: real, ma: real)
    returns (mv': real, ma': real)
    requires mv >= 0.0
    ensures mv' == Max(mv, VelPeakOf(v0, v1, a, b, dt))
    ensures ma' == Max(ma, AccPeakOf(a, b, dt))
  {
    mv' := FoldVelocity(v0, v1, a, b, dt, mv);
    ma' := FoldAcceleration(a, b, dt, ma);
  }

  /** The velocity candidates: the end velocity, then v0 + b t0 when the
      zero-acceleration time t0 lies strictly inside the interval. */
  method FoldVelocity(v0: real, v1: real, a: real, b: real, dt: real, mv: real) returns (mv': real)
    requires mv >= 0.0
    ensures mv' == Max(mv, VelPeakOf(v0, v1, a, b, dt))
  {
    mv' := mv;
    if Abs(v1) > mv' {
      mv' := Abs(v1);
    }
    if a != 0.0 {
      var t0 := -b / (3.0 * a);
      assert t0 == NullAcc(a, b);
      var v := v0 + b * t0;
      if t0 > 0.0 && t0 < dt && Abs(v) > mv' {
        mv' := Abs(v);
      }
    }
  }

  /** The acceleration candidates at the two ends: 2b and 2b + 6a dt. */
  method FoldAcceleration(a: real, b: real, dt: real, ma: real) returns (ma': real)
    ensures ma' == Max(ma, AccPeakOf(a, b, dt))
  {
    ma' := ma;
    var start, end := 2.0 * b, 2.0 * b + 6.0 * a * dt;
    if Abs(start) > ma' {
      ma' := Abs(start);
    }
    if Abs(end) > ma' {
      ma' := Abs(end);
    }
  }

  // ---------------------------------------------------------------------
  // What the coefficients mean

  /** The fitted cubic meets the segment's end states: it starts at (p0, v0)
      and ends, dt later, at (p1, v1); its acceleration at the two ends is
      2b and 2b + 6a dt. */
  lemma CubicFit(s: Segment)
    requires s.dt != 0.0
    ensures Pos(s, 0.0) == s.p0 && Vel(s, 0.0) == s.v0
    ensures Pos(s, s.dt) == s.p1 && Vel(s, s.dt) == s.v1
    ensures Acc(s, 0.0) == 2.0 * CoefB(s) && Acc(s, s.dt) == 2.0 * CoefB(s) + 6.0 * CoefA(s) * s.dt
  {
    EndPosition(s);
    EndVelocity(s);
  }

  /** The fitted cubic's position at dt is p1. */
  lemma EndPosition(s: Segment)
    requires s.dt != 0.0
    ensures Pos(s, s.dt) == s.p1
  {
    var a, b, dt := CoefA(s), CoefB(s), s.dt;
    Scaled(a, b, s);
    var nb, na := b * (dt * dt), a * (dt * dt * dt);
    PowersGrouped(a, b, dt);
    assert Pos(s, dt) == s.p0 + s.v0 * dt + b * dt * dt + a * dt * dt * dt;
    var u0, u1 := dt * s.v0, dt * s.v1;
    assert nb == 3.0 * (s.p1 - s.p0) - (2.0 * u0 + u1);
    assert na == 2.0 * (s.p0 - s.p1) + (u0 + u1);
  }

  /** The cubic's terms regrouped around the powers of t. */
  lemma PowersGrouped(a: real, b: real, t: real)
    ensures b * t * t == b * (t * t) && a * t * t * t == a * (t * t * t)
  {
  }

  /** The coefficients times the powers of dt they were divided by. */
  lemma Scaled(a: real, b: real, s: Segment)
    requires s.dt != 0.0 && a == CoefA(s) && b == CoefB(s)
    ensures a * (s.dt * s.dt * s.dt) == 2.0 * (s.p0 - s.p1) + s.dt * (s.v0 + s.v1)
    ensures b * (s.dt * s.dt) == 3.0 * (s.p1 - s.p0) - s.dt * (2.0 * s.v0 + s.v1)
  {
  }

  /** The fitted cubic's velocity at dt is v1. */
  lemma EndVelocity(s: Segment)
    requires s.dt != 0.0
    ensures s.v1 == s.v0 + 2.0 * CoefB(s) * s.dt + 3.0 * CoefA(s) * s.dt * s.dt
  {
    var a, b, dt := CoefA(s), CoefB(s), s.dt;
    Scaled(a, b, s);
    var na := a * (dt * dt * dt);
    var nb := b * (dt * dt);
    assert (2.0 * b * dt + 3.0 * a * dt * dt) * dt == 2.0 * nb + 3.0 * na;
    assert 2.0 * nb + 3.0 * na == (s.v1 - s.v0) * dt;
  }

  /** At t0 = -b/(3a) the acceleration vanishes and the velocity is
      v0 + b t0, the interior candidate `check` uses. */
  lemma NullAccPoint(s: Segment)
    requires s.dt != 0.0 && CoefA(s) != 0.0
    ensures Acc(s, NullAccTime(s)) == 0.0
    ensures Vel(s, NullAccTime(s)) == s.v0 + CoefB(s) * NullAccTime(s)
  {
    var a, b, t0 := CoefA(s), CoefB(s), NullAccTime(s);
    assert 3.0 * a * t0 == -b;
    assert 3.0 * a * t0 * t0 == -b * t0;
  }

  // ---------------------------------------------------------------------
  // The running maxima

  /** The maxima never decrease from one iteration to a later one. */
  lemma {:induction false} MaximaMonotone(c: Curve, m: int, n: int)
    requires Checkable(c) && 0 <= m <= n <= c.ns
    ensures MaxVel(c, m) <= MaxVel(c, n) && MaxAcc(c, m) <= MaxAcc(c, n)
    decreases n - m
  {
    if m < n {
      MaximaMonotone(c, m, n - 1);
    }
  }

  /** After n iterations the maxima bound every candidate seen so far:
      mv >= |v1_i|, ma >= |2b_i| and ma >= |2b_i + 6a_i dt_i| for i < n. */
  lemma {:induction false} MaximaBoundPeaks(c: Curve, n: int, i: int)
    requires Checkable(c) && 0 <= i < n <= c.ns
    ensures MaxVel(c, n) >= VelPeak(Seg(c, i)) >= Abs(EndVel(c, i))
    ensures MaxAcc(c, n) >= AccPeak(Seg(c, i))
    ensures Seg(c, i).dt != 0.0 ==>
              MaxAcc(c, n) >= Abs(2.0 * CoefB(Seg(c, i))) &&
              MaxAcc(c, n) >= Abs(2.0 * CoefB(Seg(c, i)) + 6.0 * CoefA(Seg(c, i)) * Seg(c, i).dt)
    decreases n
  {
    if i < n - 1 {
      MaximaBoundPeaks(c, n - 1, i);
    }
  }

  /** The maxima are the least upper bounds: at most X exactly when X is
      non-negative and bounds every interval's peak. */
  lemma {:induction false} MaxVelAtMost(c: Curve, n: int, x: real)
    requires Checkable(c) && 0 <= n <= c.ns
    ensures MaxVel(c, n) <= x <==> 0.0 <= x && forall i :: 0 <= i < n ==> VelPeak(Seg(c, i)) <= x
    decreases n
  {
    if n > 0 {
      MaxVelAtMost(c, n - 1, x);
    }
  }

  lemma {:induction false} MaxAccAtMost(c: Curve, n: int, x: real)
    requires Checkable(c) && 0 <= n <= c.ns
    ensures MaxAcc(c, n) <= x <==> 0.0 <= x && forall i :: 0 <= i < n ==> AccPeak(Seg(c, i)) <= x
    decreases n
  {
    if n > 0 {
      MaxAccAtMost(c, n - 1, x);
    }
  }

  lemma ToMotorAtMost(m: real, grt: real, bound: real)
    requires grt > 0.0
    ensures ToMotor(m, grt) <= bound <==> m <= bound * 6.0 / grt
    ensures 0.0 <= bound * 6.0 / grt <==> 0.0 <= bound
  {
    assert ToMotor(bound * 6.0 / grt, grt) == bound;
  }

  /** The verdict of `check` interval by interval: the duration gate holds,
      no zero-length interval jumps, the bounds are non-negative, and every
      interval's velocity and acceleration peaks, in motor units, are within
      the bounds. */
  lemma FeasibleIff(c: Curve, maxvel: real, maxacc: real)
    requires Checkable(c)
    ensures Feasible(c, maxvel, maxacc) <==>
              GateOk(c) && NoBlowBefore(c, c.ns) && 0.0 <= maxvel && 0.0 <= maxacc &&
              forall i :: 0 <= i < c.ns ==>
                ToMotor(VelPeak(Seg(c, i)), c.grt) <= maxvel && ToMotor(AccPeak(Seg(c, i)), c.grt) <= maxacc
  {
    var xv, xa := maxvel * 6.0 / c.grt, maxacc * 6.0 / c.grt;
    ToMotorAtMost(MaxVel(c, c.ns), c.grt, maxvel);
    ToMotorAtMost(MaxAcc(c, c.ns), c.grt, maxacc);
    MaxVelAtMost(c, c.ns, xv);
    MaxAccAtMost(c, c.ns, xa);
    forall i | 0 <= i < c.ns
      ensures ToMotor(VelPeak(Seg(c, i)), c.grt) <= maxvel <==> VelPeak(Seg(c, i)) <= xv
      ensures ToMotor(AccPeak(Seg(c, i)), c.grt) <= maxacc <==> AccPeak(Seg(c, i)) <= xa
    {
      ToMotorAtMost(VelPeak(Seg(c, i)), c.grt, maxvel);
      ToMotorAtMost(AccPeak(Seg(c, i)), c.grt, maxacc);
    }
  }

  // ---------------------------------------------------------------------
  // What the check guarantees about the motion between waypoints

  /** The velocity v(t) = v0 + 2bt + 3at^2 is the chord from v0 to v1 plus
      3a t (t - dt): below the chord when a >= 0, above it when a <= 0. */
  lemma VelocityChord(v0: real, v1: real, a: real, b: real, dt: real, t: real)
    requires dt > 0.0 && 0.0 <= t <= dt
    requires v1 == v0 + 2.0 * b * dt + 3.0 * a * dt * dt
    ensures a >= 0.0 ==> v0 + 2.0 * b * t + 3.0 * a * t * t <= Max(Abs(v0), Abs(v1))
    ensures a <= 0.0 ==> v0 + 2.0 * b * t + 3.0 * a * t * t >= -Max(Abs(v0), Abs(v1))
  {
    var u := t / dt;
    assert 0.0 <= u <= 1.0;
    assert (v1 - v0) * u == (2.0 * b + 3.0 * a * dt) * t;
    ChordBetween(v0, v1, u);
    BendSign(a, dt, t);
  }

  /** A point of the chord between x and y lies between them. */
  lemma ChordBetween(x: real, y: real, u: real)
    requires 0.0 <= u <= 1.0
    ensures Abs(x + (y - x) * u) <= Max(Abs(x), Abs(y))
  {
    ScaledBetween(y - x, u, (y - x) * u);
    if x <= y {
      AbsBetween(x, x + (y - x) * u, y);
    } else {
      AbsBetween(y, x + (y - x) * u, x);
    }
  }

  /** w, a fraction u in [0, 1] of d, lies between 0 and d. */
  lemma ScaledBetween(d: real, u: real, w: real)
    requires 0.0 <= u <= 1.0 && w == d * u
    ensures d >= 0.0 ==> 0.0 <= w <= d
    ensures d <= 0.0 ==> d <= w <= 0.0
  {
    assert d - d * u == d * (1.0 - u);
    if d >= 0.0 {
      NonNegProduct(d, u);
      NonNegProduct(d, 1.0 - u);
    } else {
      NonNegProduct(-d, u);
      NonNegProduct(-d, 1.0 - u);
      assert (-d) * u == -(d * u);
      assert (-d) * (1.0 - u) == -(d * (1.0 - u));
    }
  }

  /** Around the vertex t0 = -b/(3a): v(t) = v(t0) + 3a (t - t0)^2, with
      v(t0) = v0 + b t0. */
  lemma VelocityVertex(v0: real, a: real, b: real, t: real)
    requires a != 0.0
    ensures v0 + 2.0 * b * t + 3.0 * a * t * t ==
            v0 + b * NullAcc(a, b) + 3.0 * a * ((t - NullAcc(a, b)) * (t - NullAcc(a, b)))
  {
    var t0 := NullAcc(a, b);
    assert b == -3.0 * a * t0;
  }

  /** The chord bends towards the sign of a: 3a t (t - dt) has the sign
      of -a on [0, dt]. */
  lemma BendSign(a: real, dt: real, t: real)
    requires 0.0 <= t <= dt
    ensures a >= 0.0 ==> 3.0 * a * t * (t - dt) <= 0.0
    ensures a <= 0.0 ==> 3.0 * a * t * (t - dt) >= 0.0
  {
    var w := t * (t - dt);
    assert w <= 0.0;
    assert 3.0 * a * t * (t - dt) == 3.0 * a * w;
  }

  /** The velocity between the two ends of an interval is bounded by the
      start velocity and the interval's peak: on [0, dt] a quadratic takes
      its extremes at the ends or at its vertex. */
  lemma VelocityWithinPeak(v0: real, v1: real, a: real, b: real, dt: real, t: real)
    requires dt > 0.0 && 0.0 <= t <= dt
    requires v1 == v0 + 2.0 * b * dt + 3.0 * a * dt * dt
    ensures Abs(v0 + 2.0 * b * t + 3.0 * a * t * t) <= Max(Abs(v0), VelPeakOf(v0, v1, a, b, dt))
  {
    var m := Max(Abs(v0), VelPeakOf(v0, v1, a, b, dt));
    VelocityChord(v0, v1, a, b, dt, t);
    if a > 0.0 {
      VelocityBelowVertex(v0, v1, a, b, dt, t, m);
    } else if a < 0.0 {
      VelocityAboveVertex(v0, v1, a, b, dt, t, m);
    }
  }

  /** With a > 0 the velocity is at least -m: at least v(t0) when t0 lies
      inside, at least v0 when t0 <= 0 and at least v1 when t0 >= dt. */
  lemma VelocityBelowVertex(v0: real, v1: real, a: real, b: real, dt: real, t: real, m: real)
    requires a > 0.0 && dt > 0.0 && 0.0 <= t <= dt
    requires v1 == v0 + 2.0 * b * dt + 3.0 * a * dt * dt
    requires Abs(v0) <= m && Abs(v1) <= m
    requires 0.0 < NullAcc(a, b) < dt ==> Abs(v0 + b * NullAcc(a, b)) <= m
    ensures v0 + 2.0 * b * t + 3.0 * a * t * t >= -m
  {
    var t0 := NullAcc(a, b);
    var q := v0 + 2.0 * b * t + 3.0 * a * t * t;
    var d0, d1, dv := Offsets(v0, v1, a, b, dt, t);
    if 0.0 < t0 < dt {
      assert 3.0 * a * dv >= 0.0;
    } else if t0 <= 0.0 {
      assert 3.0 * a * d0 >= 0.0;
    } else {
      assert 3.0 * a * d1 >= 0.0;
    }
  }

  /** With a < 0, symmetrically, the velocity is at most m. */
  lemma VelocityAboveVertex(v0: real, v1: real, a: real, b: real, dt: real, t: real, m: real)
    requires a < 0.0 && dt > 0.0 && 0.0 <= t <= dt
    requires v1 == v0 + 2.0 * b * dt + 3.0 * a * dt * dt
    requires Abs(v0) <= m && Abs(v1) <= m
    requires 0.0 < NullAcc(a, b) < dt ==> Abs(v0 + b * NullAcc(a, b)) <= m
    ensures v0 + 2.0 * b * t + 3.0 * a * t * t <= m
  {
    var t0 := NullAcc(a, b);
    var q := v0 + 2.0 * b * t + 3.0 * a * t * t;
    var d0, d1, dv := Offsets(v0, v1, a, b, dt, t);
    if 0.0 < t0 < dt {
      assert 3.0 * a * dv <= 0.0;
    } else if t0 <= 0.0 {
      assert 3.0 * a * d0 <= 0.0;
    } else {
      assert 3.0 * a * d1 <= 0.0;
    }
  }

  /** The velocity at t relative to v0, to v1 and to the vertex value
      v0 + b t0, each as 3a times a factor whose sign is known on the
      side of t0 that [0, dt] lies on. */
  lemma Offsets(v0: real, v1: real, a: real, b: real, dt: real, t: real) returns (d0: real, d1: real, dv: real)
    requires a != 0.0 && dt > 0.0 && 0.0 <= t <= dt
    requires v1 == v0 + 2.0 * b * dt + 3.0 * a * dt * dt
    ensures v0 + 2.0 * b * t + 3.0 * a * t * t == v0 + 3.0 * a * d0
    ensures v0 + 2.0 * b * t + 3.0 * a * t * t == v1 + 3.0 * a * d1
    ensures v0 + 2.0 * b * t + 3.0 * a * t * t == v0 + b * NullAcc(a, b) + 3.0 * a * dv
    ensures dv >= 0.0
    ensures NullAcc(a, b) <= 0.0 ==> d0 >= 0.0
    ensures NullAcc(a, b) >= dt ==> d1 >= 0.0
  {
    var t0 := NullAcc(a, b);
    assert b == -3.0 * a * t0;
    d0 := t * (t - 2.0 * t0);
    d1 := (t - dt) * (t + dt - 2.0 * t0);
    dv := (t - t0) * (t - t0);
    VelocityVertex(v0, a, b, t);
    if t - t0 >= 0.0 {
      NonNegProduct(t - t0, t - t0);
    } else {
      NonNegProduct(t0 - t, t0 - t);
    }
    assert 2.0 * b * t + 3.0 * a * t * t == 3.0 * a * d0;
    assert 2.0 * b * (t - dt) + 3.0 * a * (t * t - dt * dt) == 3.0 * a * d1 by {
      assert t * t - dt * dt == (t - dt) * (t + dt);
    }
    if t0 <= 0.0 {
      NonNegProduct(t, t - 2.0 * t0);
    }
    if t0 >= dt {
      NonNegProduct(dt - t, 2.0 * t0 - t - dt);
      assert d1 == (dt - t) * (2.0 * t0 - t - dt);
    }
  }

  lemma NonNegProduct(x: real, y: real)
    requires x >= 0.0 && y >= 0.0
    ensures x * y >= 0.0
  {
  }

  /** The acceleration 2b + 6at is linear in t, so on [0, dt] it stays
      between its values at the two ends. */
  lemma AccelerationWithinPeak(a: real, b: real, dt: real, t: real)
    requires 0.0 <= t <= dt
    ensures Abs(2.0 * b + 6.0 * a * t) <= AccPeakOf(a, b, dt)
  {
    var lo, x, hi := 2.0 * b, 2.0 * b + 6.0 * a * t, 2.0 * b + 6.0 * a * dt;
    if a >= 0.0 {
      NonNegProduct(a, t);
      NonNegProduct(a, dt - t);
      AbsBetween(lo, x, hi);
    } else {
      NonNegProduct(-a, t);
      NonNegProduct(-a, dt - t);
      AbsBetween(hi, x, lo);
    }
  }

  /** A value between two others is no larger in magnitude than both. */
  lemma AbsBetween(lo: real, x: real, hi: real)
    requires lo <= x <= hi
    ensures Abs(x) <= Max(Abs(lo), Abs(hi))
  {
  }

  /** On an interval of positive length the fitted cubic's velocity stays
      within the start velocity and the interval's peak, and its
      acceleration within the acceleration peak. */
  lemma SegmentWithinPeaks(s: Segment, t: real)
    requires s.dt > 0.0 && 0.0 <= t <= s.dt
    ensures Abs(Vel(s, t)) <= Max(Abs(s.v0), VelPeak(s))
    ensures Abs(Acc(s, t)) <= AccPeak(s)
  {
    var a, b := CoefA(s), CoefB(s);
    EndVelocity(s);
    var vel, acc := Vel(s, t), Acc(s, t);
    assert vel == s.v0 + 2.0 * b * t + 3.0 * a * t * t;
    assert acc == 2.0 * b + 6.0 * a * t;
    WithinPeaksOf(s.v0, s.v1, a, b, s.dt, t, vel, acc);
  }

  /** SegmentWithinPeaks over abstract coefficients. */
  lemma WithinPeaksOf(v0: real, v1: real, a: real, b: real, dt: real, t: real, vel: real, acc: real)
    requires dt > 0.0 && 0.0 <= t <= dt
    requires v1 == v0 + 2.0 * b * dt + 3.0 * a * dt * dt
    requires vel == v0 + 2.0 * b * t + 3.0 * a * t * t && acc == 2.0 * b + 6.0 * a * t
    ensures Abs(vel) <= Max(Abs(v0), VelPeakOf(v0, v1, a, b, dt))
    ensures Abs(acc) <= AccPeakOf(a, b, dt)
  {
    VelocityWithinPeak(v0, v1, a, b, dt, t);
    AccelerationWithinPeak(a, b, dt, t);
  }

  /** What a passing check means for the motion: on every interval of
      positive length the fitted cubic's velocity and acceleration, in
      motor units, stay within the bounds at every instant, not only at the
      candidates `check` compares. */
  lemma FeasibleBoundsMotion(c: Curve, maxvel: real, maxacc: real, i: int, t: real)
    requires Checkable(c) && Feasible(c, maxvel, maxacc)
    requires 0 <= i < c.ns && Seg(c, i).dt > 0.0 && 0.0 <= t <= Seg(c, i).dt
    ensures ToMotor(Abs(Vel(Seg(c, i), t)), c.grt) <= maxvel
    ensures ToMotor(Abs(Acc(Seg(c, i), t)), c.grt) <= maxacc
  {
    var s := Seg(c, i);
    var v, w := Abs(Vel(s, t)), Abs(Acc(s, t));
    SegmentWithinPeaks(s, t);
    MaximaBoundPeaks(c, c.ns, i);
    if i > 0 {
      MaximaBoundPeaks(c, c.ns, i - 1);
    }
    assert v <= MaxVel(c, c.ns) && w <= MaxAcc(c, c.ns);
    ToMotorAtMost(MaxVel(c, c.ns), c.grt, maxvel);
    ToMotorAtMost(MaxAcc(c, c.ns), c.grt, maxacc);
    ToMotorAtMost(v, c.grt, maxvel);
    ToMotorAtMost(w, c.grt, maxacc);
  }

  // ---------------------------------------------------------------------
  // The terminator and anything past ns is not inspected

  /** Two curves with the same ns intervals, whatever follows them. */
  predicate SameIntervals(c1: Curve, c2: Curve)
    requires Checkable(c1) && Checkable(c2)
  {
    c1.ns == c2.ns && c1.grt == c2.grt && c1.qpd == c2.qpd &&
    c1.P[..c1.ns] == c2.P[..c2.ns] && c1.V[..c1.ns] == c2.V[..c2.ns] && c1.T[..c1.ns] == c2.T[..c2.ns]
  }

  lemma SameIntervalsSegments(c1: Curve, c2: Curve, i: int)
    requires Checkable(c1) && Checkable(c2) && SameIntervals(c1, c2) && 0 <= i < c1.ns
    ensures Seg(c1, i) == Seg(c2, i) && c1.T[i] == c2.T[i]
  {
    assert c1.P[i] == c1.P[..c1.ns][i] && c2.P[i] == c2.P[..c2.ns][i];
    assert c1.V[i] == c1.V[..c1.ns][i] && c2.V[i] == c2.V[..c2.ns][i];
    assert c1.T[i] == c1.T[..c1.ns][i] && c2.T[i] == c2.T[..c2.ns][i];
    if i > 0 {
      assert c1.P[i - 1] == c1.P[..c1.ns][i - 1] && c2.P[i - 1] == c2.P[..c2.ns][i - 1];
      assert c1.V[i - 1] == c1.V[..c1.ns][i - 1] && c2.V[i - 1] == c2.V[..c2.ns][i - 1];
    }
  }

  lemma {:induction false} SameIntervalsMaxima(c1: Curve, c2: Curve, n: int)
    requires Checkable(c1) && Checkable(c2) && SameIntervals(c1, c2) && 0 <= n <= c1.ns
    ensures MaxVel(c1, n) == MaxVel(c2, n) && MaxAcc(c1, n) == MaxAcc(c2, n)
    decreases n
  {
    if n > 0 {
      SameIntervalsMaxima(c1, c2, n - 1);
      SameIntervalsSegments(c1, c2, n - 1);
    }
  }

  /** `check` reads only the first ns entries: the terminator, or anything
      else past the last interval, never changes the verdict. */
  lemma CheckIgnoresTerminator(c1: Curve, c2: Curve, maxvel: real, maxacc: real)
    requires Checkable(c1) && Checkable(c2) && SameIntervals(c1, c2)
    ensures Feasible(c1, maxvel, maxacc) == Feasible(c2, maxvel, maxacc)
  {
    assert GateOk(c1) == GateOk(c2) by {
      forall i | 0 <= i < c1.ns
        ensures GateAt(c1, i) == GateAt(c2, i)
      {
        SameIntervalsSegments(c1, c2, i);
      }
    }
    assert NoBlowBefore(c1, c1.ns) == NoBlowBefore(c2, c2.ns) by {
      forall i | 0 <= i < c1.ns
        ensures Blows(Seg(c1, i)) == Blows(Seg(c2, i))
      {
        SameIntervalsSegments(c1, c2, i);
      }
    }
    SameIntervalsMaxima(c1, c2, c1.ns);
  }
}

=== FILE: wrappers.dfy ===
/** The optional-value datatype shared by the modules of this model. */
module Wrappers {

  datatype Option<+T> = None | Some(value: T)
}
